=== FILE: README.md ===
# Velvet Revolver: file-name conventions, in Dafny

Velvet Revolver is a Blender add-on for proxy editing. Its core is one
convention for media file names:

- the batch transcoder writes the proxy of a source `<stem>` + four
  characters (`<stem>.mov`, say) as `<stem>_proxy.mov`, whatever the codec;
- it writes an intermediate of that source as `<stem>_PRORES.mov`,
  `<stem>_MJPEG.mov` or `<stem>_h264.mkv`;
- the to-proxy toggle, for an untagged file `<base>.<ext>`, accepts any
  `<base>_proxy.*`, whatever its extension.

The add-on uses that convention in three places:

- **to-proxy toggle** (`Proxy_Editing_ToProxy`): moves every movie and sound
  strip of the timeline to its proxy file. A tagged intermediate goes through
  `checkProxyFile`, which tries the stem with the original extension first
  and then each movie extension. An untagged file is globbed for
  `<base>_proxy.*`.
- **to-full-res toggle** (`Proxy_Editing_ToFullRes`): moves every strip on a
  `_proxy.` path to the first `_PRORES`, `_MJPEG`, `_h264` or bare file of
  its stem.
- **batch transcoder** (`VelvetRevolver.execute` with `VideoSource`): picks
  the original clips of a folder. Then it runs a proxy pass and/or an
  intermediate pass of ffmpeg jobs over them. Each job's output path and
  command line is built from the source name and the settings. A job is
  FINISHED exactly when its output path exists afterwards. Along the way it
  keeps a progress level and counts the failures.

Modules (one file each):

| file | module | what |
|---|---|---|
| wrappers.dfy | Wrappers | `Option` |
| pystr.dfy | PyStr | Python's `in` on strings, `s[:-k]`, `s[-k:]`, ASCII `lower()`, `str()` of an integer |
| files.dfy | Files | the folder as an ordered listing: `isfile`/`exists`, `posixpath.splitext`, `glob` for `P.*` and `dir/*.*`, `os.path.split` |
| naming.dfy | Naming | tags, the classification of a strip path, `checkProxyFile` (a method with its loop) and the two retargeting rules |
| timeline.dfy | Timeline | strips as objects; both toggles as loops that rewrite the strips in place |
| transcode.dfy | Transcode | `VideoSource.__init__` (a value: its fields never change later), the command string, `runFF` |
| batch.dfy | Batch | the source filter loop, the progress increment, the two passes, the failure count |
| roundtrip.dfy | RoundTrip | how the outputs of the transcoder meet the toggles, and the round trips |

These are parameters of the model:

- The folder listing (`Disk`).
- The movie extension set `bpy.path.extensions_movie` (`movieExts`). It is a
  frozenset, so its iteration order is not fixed, and the model takes that
  order as an input.
- The scene frame rate as text (`fps`).
- What each ffmpeg run leaves behind (`wrote`). A run may create its output
  and never removes anything.

Behaviour of the code worth noting:

- An output that already exists makes `runFF` report FINISHED, even with
  overwrite off and ffmpeg writing nothing (`Transcode.RunFF`,
  `Batch.PreexistingOutputCountsAsSuccess`).
- The full-resolution ProRes options carry `-pix_fmt yuv422p10le` and then
  `-pix_fmt yuvj422p` (`Transcode.FormatArgs`). `FormatArgs` has no
  contract, so it has no row in the table below.
- With a pass requested and no source in the folder,
  `int(100 / len(sources))` raises ZeroDivisionError
  (`Outcome.ZeroDivision`).
- On a miss, the tagged to-proxy branches assign `None` to the strip's path
  (see Findings). What follows depends on Blender's property setter: either
  the path is cleared, or a TypeError ends the pass at that strip, so later
  strips are not retargeted and `make_paths_relative` does not run.
- The source filter rejects any name containing `_h264`, with or without a
  dot. The to-proxy classification tests for `_h264.`.

## Model

| member | source | states |
|---|---|---|
| PyStr.Contains | Blender_2.80/velvet_revolver.py:86-99 | `sub in s` holds exactly when `sub` occurs at some index of `s` |
| PyStr.NatToDecimal | Blender_2.80/velvet_revolver.py:255-259 | `str(n)` is a string of decimal digits whose value is `n`, with no leading `0` unless `n == 0` |
| Files.SplitExt | Blender_2.80/velvet_revolver.py:67 | `splitext` cuts the path into a base and an extension that concatenate back to it; the extension is empty or one dot-led component with no dot or separator after the dot |
| Files.SplitExtAt | Blender_2.80/velvet_revolver.py:105 | `splitext(b + e)` is exactly `(b, e)` for a one-dot extension `e` after a base that does not end in a dot or a separator |
| Files.GlobIn | Blender_2.80/velvet_revolver.py:109-111 | `glob(P + ".*")` holds exactly the listed files that are `P`, a dot, then no separator |
| Files.GlobFolderIn | Blender_2.80/velvet_revolver.py:456 | `glob(dir + "*.*")` holds exactly the listed non-hidden names directly in `dir` that contain a dot |
| Files.FirstExisting | Blender_2.80/velvet_revolver.py:64-77 | the first existing candidate, in candidate order; none exactly when no candidate exists |
| Files.VideosFolder | Blender_2.80/velvet_revolver.py:447-448 | the folder is the chosen path up to its last separator, with trailing separators removed unless only separators remain, then one separator; a path without a separator gives `/`, as `os.path.split` followed by `+ os.sep` does |
| Naming.TagLen | Blender_2.80/velvet_revolver.py:91-100 | the fixed cuts 7, 6 and 5 are exactly the lengths of `_PRORES`, `_MJPEG` and `_h264` |
| Naming.Classify | Blender_2.80/velvet_revolver.py:86-104 | a path is a proxy exactly when it holds `_proxy.`; otherwise it takes the first of `_PRORES.`, `_MJPEG.`, `_h264.` it holds, and is untagged exactly when it holds none |
| Naming.CheckProxyFile | Blender_2.80/velvet_revolver.py:64-77 | returns the first existing of stem+`_proxy`+own extension and stem+`_proxy`+each movie extension, or None; a result exists and carries `_proxy` |
| Naming.ProxyTarget | Blender_2.80/velvet_revolver.py:86-111 | a proxy found for a strip path exists on disk and carries `_proxy` |
| Naming.RetargetToProxy | Blender_2.80/velvet_revolver.py:81-115 | the strip keeps its path or moves to an existing `_proxy` file, and a proxy path never moves |
| Naming.RetargetToProxyAsWritten | Blender_2.80/velvet_revolver.py:86-115 | the value the to-proxy branches as written assign: a proxy path keeps its path; a tagged path gets None exactly when none of its proxy candidates exists, and otherwise an existing `_proxy` file; an untagged path gets what the corrected rule gives |
| Naming.AsWrittenAssignsNoneOnMiss | Blender_2.80/velvet_revolver.py:91-101 | a tagged path with no proxy candidate on disk gets None as written, while the corrected rule keeps the path |
| Naming.AsWrittenAgreesOtherwise | Blender_2.80/velvet_revolver.py:86-115 | whenever the branches as written yield a path, it is the corrected rule's path |
| Naming.ProxyPathIsLeftAlone | Blender_2.80/velvet_revolver.py:86-88 | a path holding `_proxy.` is a proxy whatever tags it also holds, and keeps its path |
| Naming.TaggedProxyLookup | Blender_2.80/velvet_revolver.py:64-101 | for `b + tag + ext` the pass recognises the tag, cuts exactly it, and tries `b_proxy` + `ext` first, then `b_proxy` + each movie extension in order |
| Naming.UntaggedProxyLookup | Blender_2.80/velvet_revolver.py:104-115 | an untagged path moves exactly when `base_proxy.*` matches and its own extension, lower-cased, is a movie extension; it then moves to the first match |
| Naming.FullResSearch | Blender_2.80/velvet_revolver.py:189-207 | the result exists and is a `_PRORES`, `_MJPEG`, `_h264` or bare name of the stem; none exactly when no such file exists |
| Naming.RetargetToFullRes | Blender_2.80/velvet_revolver.py:184-211 | a strip moves only from a `_proxy.` path, and only to an existing file |
| Naming.FullResLookup | Blender_2.80/velvet_revolver.py:184-188 | for `b + "_proxy" + ext` the 6-character cut recovers exactly `b`, and with no match the path stays |
| Naming.NonProxyPathIsLeftAlone | Blender_2.80/velvet_revolver.py:209-211 | a path without `_proxy.` is never retargeted to full resolution |
| Naming.FullResSearchPriority | Blender_2.80/velvet_revolver.py:189-204 | if a file under a tag of some rank exists, the search finds a file under a tag of that rank or a higher one |
| Timeline.ProxyPathFor | Blender_2.80/velvet_revolver.py:82-115 | the branches for one movie strip give the corrected to-proxy path |
| Timeline.FullResPathFor | Blender_2.80/velvet_revolver.py:180-211 | the branches for one movie strip give the to-full-res path |
| Timeline.StripToProxy | Blender_2.80/velvet_revolver.py:81-148 | one strip of the to-proxy loop: a movie or sound strip gets its to-proxy path, any other strip keeps its path |
| Timeline.StripToFullRes | Blender_2.80/velvet_revolver.py:181-236 | one strip of the to-full-res loop: a movie or sound strip gets its to-full-res path, any other strip keeps its path |
| Timeline.ToProxy | Blender_2.80/velvet_revolver.py:79-155 | every movie and sound strip gets its to-proxy path, computed from its path before the pass; other strips keep theirs |
| Timeline.ToFullRes | Blender_2.80/velvet_revolver.py:174-242 | every movie and sound strip gets its to-full-res path; other strips keep theirs |
| Transcode.NewVideoSource | Blender_2.80/velvet_revolver.py:253-308 | the job keeps its input, output path, flag fragments, option text, audio rate and size text as `__init__` sets them |
| Transcode.RunFF | Blender_2.80/velvet_revolver.py:310-322 | runs the command built from the job, removes no file, and reports FINISHED exactly when the output existed before or the run wrote it |
| Transcode.CommandIsCallFormat | Blender_2.80/velvet_revolver.py:313-315 | `Transcode.Command` is the `%` formatting of the `callFFMPEG` template `"%s" -hwaccel auto -i "%s" %s -r %s -s %s%s%s -ar %s%s "%s"` with `ffCommand`, `input`, `format`, `fps`, `v_size`, `deinter`, `achannels`, `arate`, `overwrite` and `v_output`, in that order |
| Transcode.OutputPathRules | Blender_2.80/velvet_revolver.py:278-305 | a proxy is the input less four characters plus `_proxy.mov`; an intermediate carries its codec's tag in `.mov`, or in `.mkv` for H.264 |
| Transcode.OutputPathsCollide | Blender_2.80/velvet_revolver.py:280-303 | two jobs on one input write the same file exactly when both are proxies, or both are intermediates of one codec |
| Transcode.OutputIsNotInput | Blender_2.80/velvet_revolver.py:280-303 | no job writes over its own input |
| Transcode.CommandShowsOverwritePolicy | Blender_2.80/velvet_revolver.py:273-315 | the command ends in ` -y "<output>"` exactly when overwrite is on |
| Transcode.FlagFragmentsAreUnambiguous | Blender_2.80/velvet_revolver.py:263-271 | the deinterlace and mono fragments, run together, determine both flags |
| Batch.Sources | Blender_2.80/velvet_revolver.py:456-468 | a folder entry is a source exactly when it is listed, its last four characters lower-cased are a movie extension, and it carries none of the four markers |
| Batch.CollectSources | Blender_2.80/velvet_revolver.py:454-468 | the filter loop builds exactly the sources, in listing order |
| Batch.ProgressIncrement | Blender_2.80/velvet_revolver.py:478-483 | the increment is 100 divided by the planned job count and rounded down; there is none, a ZeroDivisionError, exactly when there are no sources |
| Batch.PlannedJobs | Blender_2.80/velvet_revolver.py:491-524 | one job per source per requested pass |
| Batch.PlanLayout | Blender_2.80/velvet_revolver.py:491-524 | the plan holds one job per source per requested pass, the proxy jobs first and the intermediate jobs right after them |
| Batch.RunAfterParts | Blender_2.80/velvet_revolver.py:486-521 | after `n` jobs exactly the first `n` planned jobs have run, the folder is as they left it, `cnt` counts the CANCELED ones, and the levels shown are 1, then `1 + k * inc` before job `k` |
| Batch.RunSource | Blender_2.80/velvet_revolver.py:494-504 | one loop iteration builds the planned job for its source, runs it and moves the loop state from `k` jobs to `k + 1` |
| Batch.RunPass | Blender_2.80/velvet_revolver.py:491-506 | one pass runs its planned jobs in order, keeping the files, the count and the progress levels in step with the plan |
| Batch.RunPlan | Blender_2.80/velvet_revolver.py:491-524 | the proxy pass and then the intermediate pass run every planned job |
| Batch.Execute | Blender_2.80/velvet_revolver.py:444-532 | with no pass requested nothing runs; with no source it raises; otherwise every planned job runs once in order, `cnt` counts the CANCELED ones and the progress levels are 1, then `1 + k * inc` |
| Batch.ProgressStaysOnBar | Blender_2.80/velvet_revolver.py:485-518 | every level shown lies between 1 and 100 and never decreases; the level left after the last job is at most 101 |
| Batch.PreexistingOutputCountsAsSuccess | Blender_2.80/velvet_revolver.py:319-322 | a job whose output was already in the folder is FINISHED whatever ffmpeg did |
| Batch.NoFailuresIffAllFinished | Blender_2.80/velvet_revolver.py:526-530 | success is reported exactly when every job was FINISHED |
| Batch.FailuresBounded | Blender_2.80/velvet_revolver.py:503-521 | `cnt` is at most the number of jobs, and equals it exactly when every job was CANCELED |
| Batch.SuccessMeansEveryOutputExists | Blender_2.80/velvet_revolver.py:526-530 | after a reported success every planned output is in the folder |
| Batch.OutputsAreNeverSources | Blender_2.80/velvet_revolver.py:466-468 | no output path of any job passes the source filter, so a rerun does not transcode outputs |
| Batch.ClipWithProxySources | Blender_2.80/velvet_revolver.py:456-468 | a folder holding `clip1.mov` and `clip1_proxy.mov` yields `clip1.mov` alone |
| Batch.ClipWithProxyJob | Blender_2.80/velvet_revolver.py:491-506 | a proxy-only run on that clip plans one job, writing to the existing proxy's name, and counts it FINISHED |
| RoundTrip.SourceStemIsClean | Blender_2.80/velvet_revolver.py:466-468 | the part of a source that its outputs keep carries no marker |
| RoundTrip.ProxyOfBuiltIntermediate | Blender_2.80/velvet_revolver.py:64-101 | the to-proxy pass recognises an intermediate's codec tag and tries `<stem>_proxy` with its extension first; for ProRes and MJPEG that is the proxy the batch writes |
| RoundTrip.FullResOfBuiltProxy | Blender_2.80/velvet_revolver.py:184-204 | the to-full-res pass on a batch proxy searches the source's stem and lands on its intermediate's tag or a higher one, or on the intermediate when it is the stem's only full-res name |
| RoundTrip.ProxyThenFullResKeepsSource | Blender_2.80/velvet_revolver.py:104-204 | toggling a plain source to proxy and back returns it, when its proxy and it are the only candidates in the folder |
| RoundTrip.IntermediateThenBackKeepsIntermediate | Blender_2.80/velvet_revolver.py:91-204 | toggling a ProRes or MJPEG intermediate to proxy and back returns it, when it is the stem's only full-res name |
| RoundTrip.TaggedThenBackSearchesStem | Blender_2.80/velvet_revolver.py:64-204 | for any strip on `b` + tag + extension that the to-proxy pass moves, whichever proxy candidate it lands on (own extension or any movie extension), the to-full-res pass searches the same stem `b` |
| RoundTrip.NoneAssignedExample | Blender_2.80/velvet_revolver.py:91-93 | `/v/clip2_PRORES.mov` in a folder without a proxy gets None as written and keeps its path in the corrected rule |

## Left out

- The operators' UI (`poll`, `draw`, properties, the file browser), menu entries, `register`/`unregister` and the preferences panel with its `which('ffmpeg')` default: they do no file-name logic.
- `SEQUENCER_OT_proxy_swap` (Blender_2.80/velvet_revolver.py:590-628): it runs one of the two toggles (modelled by `Timeline.ToProxy` and `Timeline.ToFullRes`), renders the viewport, then sets the scene's render resolution from the first movie strip's original image size; that render state is not modelled.
- `make_paths_absolute`: the model takes strip paths as they are after it runs.
- `make_paths_relative`, which both toggles call last (Blender_2.80/velvet_revolver.py:155, 242): the paths in the `Timeline` contracts are the absolute paths before that rewrite. Blender's relative-path form is not modelled.
- `print` and `self.report` messages; `wm.progress_begin`/`progress_end`. The progress updates are modelled as the list of levels passed.
- The subprocess itself: what ffmpeg does with the command. It is the `wrote` parameter.
- Files.VideosFolder, Files.SplitExt, Files.GlobIn and Files.GlobFolderIn follow POSIX path rules: `posixpath`'s `split` and `splitext`, `os.sep == '/'` and a case-sensitive glob. Windows paths (backslash separators, drive letters, a case-insensitive glob) are not modelled, so for a Windows path the model finds no folder to glob.
- Batch.Execute is the batch logic under those POSIX path rules with the command string parsed into arguments; no single platform combines the two (see the next line).
- Transcode.RunFF and Batch.Execute describe a platform where `call` parses the command string into arguments, as it does on Windows. On POSIX, `call(string, shell=False)` at Blender_2.80/velvet_revolver.py:318 takes the whole string as the program's name. The first job then raises FileNotFoundError, which ends `execute` with no report and leaves the progress bar open without `progress_end`. The model does not capture that platform behaviour.
- The frame rate: `round(render.fps / render.fps_base, 2)` is floating point, so `fps` is a text parameter.
- Directories, symbolic links and glob magic characters (`*?[`) inside folder or stem names: the glob model matches names literally.
- `str.lower()` beyond ASCII letters.
- Sound datablocks shared between strips: a sound strip's `sound.filepath` is modelled as a field of that strip.
- The iteration order of `extensions_movie`: it is a parameter.
- Files.SplitExt: its own contract states only the shape of the split; the full `posixpath.splitext` rule (last dot of the last component, leading dots kept) is in its body, and is stated exactly, for the paths the round trips use, by `Files.SplitExtAt`.
- Files.GlobIn: its contract states which files match, not their order; the body keeps listing order, which the model uses in place of the filesystem's `glob` order.
- Naming.ProxyTarget: its contract states what a found proxy is, not which one is found; `Naming.TaggedProxyLookup` and `Naming.UntaggedProxyLookup` state that.

## Findings

| source | as written | input that shows it | evidently intended | confidence | as-written member | corrected member |
|---|---|---|---|---|---|---|
| Blender_2.80/velvet_revolver.py:91-101 | the tagged branches assign `checkProxyFile(...)` to the strip path; it returns None when no proxy candidate exists, so Blender either clears the path or raises a TypeError that ends the pass at that strip | a strip on `/v/clip2_PRORES.mov` in a folder holding only that file | leave the strip path unchanged when no proxy is found, as the untagged branch does | not executed | Naming.RetargetToProxyAsWritten | Naming.RetargetToProxy |

The same branches recur for sound strips at
Blender_2.80/velvet_revolver.py:128-137. `RoundTrip.NoneAssignedExample` and
`Naming.AsWrittenAssignsNoneOnMiss` exhibit the discrepancy. Both toggles in
`Timeline` use the corrected rule.

=== FILE: batch.dfy ===
/**
 * VelvetRevolver.execute: pick the original clips of a folder, run a proxy
 * pass and/or an intermediate pass over them, keep the progress level and
 * count the jobs whose output is missing.
 */
module Batch {
  import opened Wrappers
  import opened PyStr
  import opened Files
  import opened Naming
  import opened Transcode

  /** The operator's properties that execute reads. */
  datatype Settings = Settings(
    proxies: bool, proxyW: int, proxyH: int,
    intermediates: bool, fullresW: int, fullresH: int,
    vFormat: Codec, ar: int, deint: bool, ac: bool, ow: bool)

  /**
   * A folder entry is a source when its last four characters, lower-cased,
   * are a movie extension and it carries none of `_proxy.`, `_MJPEG.`,
   * `_PRORES.` or `_h264` (the last one without a dot).
   */
  predicate IsSource(f: string, movieExts: seq<string>) {
    && Lower(TakeLast(f, 4)) in movieExts
    && !Contains(f, ProxyTag + ".")
    && !Contains(f, TagText(Mjpeg) + ".")
    && !Contains(f, TagText(Prores) + ".")
    && !Contains(f, TagText(H264))
  }

  /** The sources among `entries`, in their order. */
  function Sources(entries: seq<string>, movieExts: seq<string>): (r: seq<string>)
    ensures forall f :: f in r <==> f in entries && IsSource(f, movieExts)
    ensures |r| <= |entries|
    decreases |entries|
  {
    if entries == [] then []
    else
      var last := entries[|entries| - 1];
      var rest := Sources(entries[..|entries| - 1], movieExts);
      assert entries == entries[..|entries| - 1] + [last];
      if IsSource(last, movieExts) then rest + [last] else rest
  }

  /** The loop that fills `sources` from the folder listing. */
  method CollectSources(entries: seq<string>, movieExts: seq<string>) returns (sources: seq<string>)
    ensures sources == Sources(entries, movieExts)
    ensures forall f :: f in sources <==> f in entries && IsSource(f, movieExts)
  {
    sources := [];
    for n := 0 to |entries|
      invariant sources == Sources(entries[..n], movieExts)
    {
      var i := entries[n];
      assert entries[..n + 1][..n] == entries[..n];
      if Lower(TakeLast(i, 4)) in movieExts {
        if !Contains(i, ProxyTag + ".") && !Contains(i, TagText(Mjpeg) + ".")
           && !Contains(i, TagText(Prores) + ".") && !Contains(i, TagText(H264)) {
          sources := sources + [i];
        }
      }
    }
    assert entries[..|entries|] == entries;
  }

  function PassCount(s: Settings): nat {
    (if s.proxies then 1 else 0) + (if s.intermediates then 1 else 0)
  }

  /** How many jobs the progress counter plans for: two per source when both passes run. */
  function PlannedCount(n: nat, both: bool): nat {
    if both then 2 * n else n
  }

  /**
   * `inc_level`: `int(100 / (2 * n))` when both passes run, else
   * `int(100 / n)`; `None` stands for the ZeroDivisionError of an empty
   * source list. It is the largest step that fits the planned jobs into 100.
   */
  function ProgressIncrement(n: nat, both: bool): (inc: Option<nat>)
    ensures inc.None? <==> n == 0
    ensures inc.Some? ==> IsFloorQuotient(inc.value, 100, PlannedCount(n, both))
  {
    if n == 0 then None
    else
      var m := PlannedCount(n, both);
      FloorDivision(100, m);
      Some(100 / m)
  }

  /** `q` is `a` divided by `m`, rounded down. */
  predicate IsFloorQuotient(q: nat, a: nat, m: nat) {
    q * m <= a < (q + 1) * m
  }

  lemma FloorDivision(a: nat, m: nat)
    requires m > 0
    ensures IsFloorQuotient(a / m, a, m)
  {
    var q, r := a / m, a % m;
    assert q * m + r == a && 0 <= r < m;
    assert (q + 1) * m == q * m + m;
  }

  /** The progress levels passed to the window manager before each of the first `n` jobs. */
  function Levels(inc: nat, n: nat): (r: seq<int>)
    ensures |r| == n
    decreases n
  {
    if n == 0 then [] else Levels(inc, n - 1) + [1 + (n - 1) * inc]
  }

  /** The jobs of one pass: one per source, in order. */
  function PassJobs(ffCommand: string, folder: string, sources: seq<string>, res: Resolution,
                    w: int, h: int, s: Settings, fps: string): (jobs: seq<VideoSource>)
    ensures |jobs| == |sources|
    ensures forall i :: 0 <= i < |sources| ==>
      jobs[i].input == sources[i] && jobs[i].vOutput == OutputPath(sources[i], res, s.vFormat)
  {
    seq(|sources|, i requires 0 <= i < |sources| =>
      NewVideoSource(ffCommand, folder, sources[i], res, w, h, s.vFormat, fps, s.deint, s.ar, s.ac, s.ow))
  }

  /** The proxy pass, then the intermediate pass, each over the whole source list. */
  function PlannedJobs(ffCommand: string, folder: string, sources: seq<string>, s: Settings, fps: string)
    : (jobs: seq<VideoSource>)
    ensures |jobs| == |sources| * PassCount(s)
  {
    (if s.proxies then PassJobs(ffCommand, folder, sources, Proxy, s.proxyW, s.proxyH, s, fps) else [])
    + (if s.intermediates then PassJobs(ffCommand, folder, sources, FullRes, s.fullresW, s.fullresH, s, fps) else [])
  }

  /** The filesystem after the first `n` jobs; `wrote(k)` says whether the k-th run left its output. */
  function DiskAfter(jobs: seq<VideoSource>, disk: Disk, wrote: nat -> bool, n: nat): Disk
    requires n <= |jobs|
  {
    if n == 0 then disk else AfterCall(DiskAfter(jobs, disk, wrote, n - 1), jobs[n - 1].vOutput, wrote(n - 1))
  }

  /** runFF's verdict on job `k`: its output path exists once it has run. */
  function JobStatus(jobs: seq<VideoSource>, disk: Disk, wrote: nat -> bool, k: nat): Status
    requires k < |jobs|
  {
    if Exists(DiskAfter(jobs, disk, wrote, k + 1), jobs[k].vOutput) then Finished else Canceled
  }

  /** `cnt` after the first `n` jobs: how many were CANCELED. */
  function CountCanceled(jobs: seq<VideoSource>, disk: Disk, wrote: nat -> bool, n: nat): nat
    requires n <= |jobs|
  {
    if n == 0 then 0
    else CountCanceled(jobs, disk, wrote, n - 1) + (if JobStatus(jobs, disk, wrote, n - 1) == Canceled then 1 else 0)
  }

  datatype Outcome =
    | NoActionSelected       // neither pass requested: nothing runs
    | ZeroDivision           // a pass requested on an empty folder: `int(100 / len(sources))` raises
    | Encoded(failures: nat) // every job ran; `failures` is the final `cnt`

  /** The operator reports "finished encoding files" only when no job failed. */
  predicate ReportsSuccess(o: Outcome) {
    o.Encoded? && o.failures == 0
  }

  /** The loop state of execute: jobs run so far, the filesystem, `cnt`, the levels shown and `percentage_level`. */
  datatype Run = Run(jobs: seq<VideoSource>, after: Disk, cnt: nat, levels: seq<int>, level: int)

  /**
   * One job of a pass loop: the transcoder may leave the output behind,
   * `cnt` grows when the output is missing, and the level is shown before it
   * moves on by `inc`.
   */
  function Step(r: Run, vs: VideoSource, wrote: bool, inc: nat): Run {
    var after := AfterCall(r.after, vs.vOutput, wrote);
    Run(r.jobs + [vs], after,
        if Exists(after, vs.vOutput) then r.cnt else r.cnt + 1,
        r.levels + [r.level], r.level + inc)
  }

  /** The loop state once the first `n` planned jobs have run. */
  function RunAfter(planned: seq<VideoSource>, disk: Disk, wrote: nat -> bool, inc: nat, n: nat): Run
    requires n <= |planned|
  {
    if n == 0 then Run([], disk, 0, [1], 1)
    else Step(RunAfter(planned, disk, wrote, inc, n - 1), planned[n - 1], wrote(n - 1), inc)
  }

  /**
   * After `n` jobs the loop has run exactly the first `n` planned jobs, the
   * folder is as they left it, `cnt` counts the CANCELED ones and the
   * levels shown are 1, then `1 + k * inc` before job `k`.
   */
  lemma {:induction false} RunAfterParts(planned: seq<VideoSource>, disk: Disk, wrote: nat -> bool, inc: nat, n: nat)
    requires n <= |planned|
    ensures var r := RunAfter(planned, disk, wrote, inc, n);
      && r.jobs == planned[..n]
      && r.after == DiskAfter(planned, disk, wrote, n)
      && r.cnt == CountCanceled(planned, disk, wrote, n)
      && r.levels == [1] + Levels(inc, n)
      && r.level == 1 + n * inc
  {
    if n > 0 {
      RunAfterParts(planned, disk, wrote, inc, n - 1);
      assert planned[..n] == planned[..n - 1] + [planned[n - 1]];
      assert 1 + (n - 1) * inc + inc == 1 + n * inc;
    }
  }

  /** Job `k` of the plan is the job a pass sitting at `start` builds for source `k - start`. */
  lemma PassJobAt(ffCommand: string, folder: string, sources: seq<string>, res: Resolution, w: int, h: int,
                  s: Settings, fps: string, planned: seq<VideoSource>, start: nat, stop: nat, k: nat)
    requires start <= k < stop == start + |sources| <= |planned|
    requires planned[start..stop] == PassJobs(ffCommand, folder, sources, res, w, h, s, fps)
    ensures planned[k] == NewVideoSource(ffCommand, folder, sources[k - start], res, w, h, s.vFormat, fps, s.deint, s.ar, s.ac, s.ow)
  {
    assert planned[start..stop][k - start] == planned[k];
  }

  /**
   * The body of a pass loop for job `k` of the plan, source `k - start` of
   * the pass: build its job, run it, count it when CANCELED, move the level on.
   */
  method RunSource(ffCommand: string, folder: string, sources: seq<string>, res: Resolution, w: int, h: int,
                   s: Settings, fps: string, wrote: nat -> bool, inc: nat,
                   ghost planned: seq<VideoSource>, ghost disk: Disk, start: nat, ghost stop: nat, k: nat, run0: Run)
    returns (run: Run)
    requires start <= k < stop == start + |sources| <= |planned|
    requires planned[start..stop] == PassJobs(ffCommand, folder, sources, res, w, h, s, fps)
    requires run0 == RunAfter(planned, disk, wrote, inc, k)
    ensures run == RunAfter(planned, disk, wrote, inc, k + 1)
  {
    var vs := NewVideoSource(ffCommand, folder, sources[k - start], res, w, h, s.vFormat, fps, s.deint, s.ar, s.ac, s.ow);
    PassJobAt(ffCommand, folder, sources, res, w, h, s, fps, planned, start, stop, k);
    var command, status, after := RunFF(vs, run0.after, wrote(k));
    var cnt := run0.cnt;
    if status == Canceled {
      cnt := cnt + 1;
    }
    run := Run(run0.jobs + [vs], after, cnt, run0.levels + [run0.level], run0.level + inc);
  }

  /** One pass loop of execute over all sources, for jobs `start` onwards of the plan. */
  method RunPass(ffCommand: string, folder: string, sources: seq<string>, res: Resolution, w: int, h: int,
                 s: Settings, fps: string, wrote: nat -> bool, inc: nat,
                 ghost planned: seq<VideoSource>, ghost disk: Disk, start: nat, run0: Run, ghost stop: nat)
    returns (run: Run)
    requires stop == start + |sources| <= |planned|
    requires planned[start..stop] == PassJobs(ffCommand, folder, sources, res, w, h, s, fps)
    requires run0 == RunAfter(planned, disk, wrote, inc, start)
    ensures run == RunAfter(planned, disk, wrote, inc, stop)
  {
    run := run0;
    for k := start to start + |sources|
      invariant run == RunAfter(planned, disk, wrote, inc, k)
    {
      run := RunSource(ffCommand, folder, sources, res, w, h, s, fps, wrote, inc, planned, disk, start, stop, k, run);
    }
  }

  /**
   * The two passes of execute, run back to back: the proxy pass when
   * proxies are requested, then the intermediate pass when intermediates
   * are, each source in turn.
   */
  method RunPlan(ffCommand: string, folder: string, sources: seq<string>, s: Settings, fps: string,
                 wrote: nat -> bool, incLevel: nat, disk: Disk)
    returns (run: Run)
    ensures run == RunAfter(PlannedJobs(ffCommand, folder, sources, s, fps), disk, wrote, incLevel,
                            |PlannedJobs(ffCommand, folder, sources, s, fps)|)
  {
    ghost var planned := PlannedJobs(ffCommand, folder, sources, s, fps);
    var done := if s.proxies then |sources| else 0;
    PlanLayout(ffCommand, folder, sources, s, fps);
    run := Run([], disk, 0, [1], 1);
    assert run == RunAfter(planned, disk, wrote, incLevel, 0);
    if s.proxies {
      run := RunPass(ffCommand, folder, sources, Proxy, s.proxyW, s.proxyH, s, fps, wrote, incLevel,
                     planned, disk, 0, run, done);
    }
    assert run == RunAfter(planned, disk, wrote, incLevel, done);
    if s.intermediates {
      run := RunPass(ffCommand, folder, sources, FullRes, s.fullresW, s.fullresH, s, fps, wrote, incLevel,
                     planned, disk, done, run, |planned|);
    } else {
      assert done == |planned|;
    }
  }

  /** Where each pass sits in the plan: the proxy jobs first, the intermediate jobs after them. */
  lemma PlanLayout(ffCommand: string, folder: string, sources: seq<string>, s: Settings, fps: string)
    ensures var planned := PlannedJobs(ffCommand, folder, sources, s, fps);
      var done := if s.proxies then |sources| else 0;
      && |planned| == done + (if s.intermediates then |sources| else 0)
      && (s.proxies ==> planned[0..done] == PassJobs(ffCommand, folder, sources, Proxy, s.proxyW, s.proxyH, s, fps))
      && (s.intermediates ==>
            planned[done..|planned|] == PassJobs(ffCommand, folder, sources, FullRes, s.fullresW, s.fullresH, s, fps))
  {
    var proxyPass := PassJobs(ffCommand, folder, sources, Proxy, s.proxyW, s.proxyH, s, fps);
    var fullPass := PassJobs(ffCommand, folder, sources, FullRes, s.fullresW, s.fullresH, s, fps);
    var planned := PlannedJobs(ffCommand, folder, sources, s, fps);
    var front := if s.proxies then proxyPass else [];
    assert planned == front + (if s.intermediates then fullPass else []);
    assert planned[..|front|] == front;
  }

  /** The sources execute finds in the folder of `blendPath`. */
  function FolderSources(disk: Disk, blendPath: string, movieExts: seq<string>): seq<string> {
    Sources(GlobFolder(disk, VideosFolder(blendPath)), movieExts)
  }

  /**
   * VelvetRevolver.execute. `blendPath` is the path the folder picker
   * returned, `fps` the scene frame rate as text and `wrote(k)` the
   * transcoder's effect on the k-th job. Returns the outcome, the progress
   * levels shown, the jobs run and the filesystem afterwards.
   */
  method Execute(disk: Disk, blendPath: string, movieExts: seq<string>, s: Settings,
                 ffCommand: string, fps: string, wrote: nat -> bool)
    returns (outcome: Outcome, progress: seq<int>, jobs: seq<VideoSource>, after: Disk)
    ensures !s.proxies && !s.intermediates ==>
      outcome == NoActionSelected && jobs == [] && progress == [] && after == disk
    ensures (s.proxies || s.intermediates) && FolderSources(disk, blendPath, movieExts) == [] ==>
      outcome == ZeroDivision && jobs == [] && progress == [] && after == disk
    ensures (s.proxies || s.intermediates) && FolderSources(disk, blendPath, movieExts) != [] ==>
      && jobs == PlannedJobs(ffCommand, VideosFolder(blendPath), FolderSources(disk, blendPath, movieExts), s, fps)
      && |jobs| == |FolderSources(disk, blendPath, movieExts)| * PassCount(s)
      && after == DiskAfter(jobs, disk, wrote, |jobs|)
      && outcome == Encoded(CountCanceled(jobs, disk, wrote, |jobs|))
      && progress == [1] + Levels(ProgressIncrement(|FolderSources(disk, blendPath, movieExts)|,
                                                    s.proxies && s.intermediates).value, |jobs|)
  {
    var folder := VideosFolder(blendPath);
    var sources := CollectSources(GlobFolder(disk, folder), movieExts);
    if !s.proxies && !s.intermediates {
      return NoActionSelected, [], [], disk;
    }
    if |sources| == 0 {
      return ZeroDivision, [], [], disk;
    }
    var incLevel := if s.proxies && s.intermediates then 100 / (2 * |sources|) else 100 / |sources|;
    assert incLevel == ProgressIncrement(|sources|, s.proxies && s.intermediates).value;
    var run := RunPlan(ffCommand, folder, sources, s, fps, wrote, incLevel, disk);
    ghost var planned := PlannedJobs(ffCommand, folder, sources, s, fps);
    RunAfterParts(planned, disk, wrote, incLevel, |planned|);
    assert run.jobs == planned[..|planned|] == planned;
    return Encoded(run.cnt), run.levels, run.jobs, run.after;
  }

  /** The levels shown are `1`, then `1 + k * inc` before job `k`. */
  lemma {:induction false} LevelAt(inc: nat, n: nat, k: nat)
    requires k < n
    ensures Levels(inc, n)[k] == 1 + k * inc
    decreases n
  {
    if k < n - 1 {
      LevelAt(inc, n - 1, k);
    }
  }

  /**
   * The progress bar stays within the range 1 to 100 that progress_begin
   * opened, and never moves back, however many jobs run up to the planned
   * count; the level left after the last job is at most 101.
   */
  lemma ProgressStaysOnBar(nSources: nat, both: bool, n: nat)
    requires nSources > 0 && n <= PlannedCount(nSources, both)
    ensures var inc := ProgressIncrement(nSources, both).value;
      var shown := [1] + Levels(inc, n);
      && (forall j :: 0 <= j < |shown| ==> 1 <= shown[j] <= 100)
      && (forall i, j :: 0 <= i <= j < |shown| ==> shown[i] <= shown[j])
      && 1 + n * inc <= 101
  {
    IncrementFits(nSources, both, n);
    ShownLevels(ProgressIncrement(nSources, both).value, n);
  }

  /** Up to the planned count, `n` steps of `inc_level` add up to at most 100. */
  lemma IncrementFits(nSources: nat, both: bool, n: nat)
    requires nSources > 0 && n <= PlannedCount(nSources, both)
    ensures n * ProgressIncrement(nSources, both).value <= 100
  {
    var inc := ProgressIncrement(nSources, both).value;
    var m := PlannedCount(nSources, both);
    assert inc * m <= 100;
    MulMonotone(n, m, inc);
  }

  /** With `n * inc` within 100, the `n` levels after the initial 1 stay within 1 to 100 and climb. */
  lemma ShownLevels(inc: nat, n: nat)
    requires n * inc <= 100
    ensures var shown := [1] + Levels(inc, n);
      && (forall j :: 0 <= j < |shown| ==> 1 <= shown[j] <= 100)
      && (forall i, j :: 0 <= i <= j < |shown| ==> shown[i] <= shown[j])
  {
    var shown := [1] + Levels(inc, n);
    forall j | 0 <= j < |shown|
      ensures 1 <= shown[j] <= 100
    {
      ShownLevelAt(inc, n, j);
      if j > 0 {
        MulMonotone(j - 1, n - 1, inc);
        assert (n - 1) * inc + inc == n * inc;
      }
    }
    forall i, j | 0 <= i <= j < |shown|
      ensures shown[i] <= shown[j]
    {
      ShownLevelAt(inc, n, i);
      ShownLevelAt(inc, n, j);
      MulMonotone(if i == 0 then 0 else i - 1, if j == 0 then 0 else j - 1, inc);
    }
  }

  lemma ShownLevelAt(inc: nat, n: nat, j: nat)
    requires j <= n
    ensures ([1] + Levels(inc, n))[j] == 1 + (if j == 0 then 0 else j - 1) * inc
  {
    if j > 0 {
      LevelAt(inc, n, j - 1);
    }
  }

  lemma {:induction false} MulMonotone(a: nat, b: nat, c: nat)
    requires a <= b
    ensures a * c <= b * c
    decreases b - a
  {
    if a < b {
      MulMonotone(a + 1, b, c);
      assert (a + 1) * c == a * c + c;
    }
  }

  /** Running jobs only ever adds files: anything present after `m` jobs is still present after `n`. */
  lemma {:induction false} DiskAfterKeeps(jobs: seq<VideoSource>, disk: Disk, wrote: nat -> bool, m: nat, n: nat, f: string)
    requires m <= n <= |jobs| && Exists(DiskAfter(jobs, disk, wrote, m), f)
    ensures Exists(DiskAfter(jobs, disk, wrote, n), f)
    decreases n - m
  {
    if m < n {
      DiskAfterKeeps(jobs, disk, wrote, m, n - 1, f);
    }
  }

  /**
   * An output that is already in the folder makes its job FINISHED whether
   * or not the transcoder wrote anything and whatever the overwrite setting:
   * with overwrite off ffmpeg declines to touch it, and runFF still reports
   * success.
   */
  lemma PreexistingOutputCountsAsSuccess(jobs: seq<VideoSource>, disk: Disk, wrote: nat -> bool, k: nat)
    requires k < |jobs| && Exists(disk, jobs[k].vOutput)
    ensures JobStatus(jobs, disk, wrote, k) == Finished
  {
    DiskAfterKeeps(jobs, disk, wrote, 0, k + 1, jobs[k].vOutput);
  }

  /** `cnt` is zero exactly when every job was FINISHED. */
  lemma {:induction false} NoFailuresIffAllFinished(jobs: seq<VideoSource>, disk: Disk, wrote: nat -> bool, n: nat)
    requires n <= |jobs|
    ensures CountCanceled(jobs, disk, wrote, n) == 0 <==>
      forall k :: 0 <= k < n ==> JobStatus(jobs, disk, wrote, k) == Finished
  {
    if n > 0 {
      NoFailuresIffAllFinished(jobs, disk, wrote, n - 1);
    }
  }

  /** `cnt` never exceeds the number of jobs run, and equals it only when every one was CANCELED. */
  lemma {:induction false} FailuresBounded(jobs: seq<VideoSource>, disk: Disk, wrote: nat -> bool, n: nat)
    requires n <= |jobs|
    ensures CountCanceled(jobs, disk, wrote, n) <= n
    ensures CountCanceled(jobs, disk, wrote, n) == n <==>
      forall k :: 0 <= k < n ==> JobStatus(jobs, disk, wrote, k) == Canceled
  {
    if n > 0 {
      FailuresBounded(jobs, disk, wrote, n - 1);
    }
  }

  /**
   * When the operator reports success, every output it planned is in the
   * folder at the end.
   */
  lemma SuccessMeansEveryOutputExists(jobs: seq<VideoSource>, disk: Disk, wrote: nat -> bool)
    requires ReportsSuccess(Encoded(CountCanceled(jobs, disk, wrote, |jobs|)))
    ensures forall k :: 0 <= k < |jobs| ==> Exists(DiskAfter(jobs, disk, wrote, |jobs|), jobs[k].vOutput)
  {
    NoFailuresIffAllFinished(jobs, disk, wrote, |jobs|);
    forall k | 0 <= k < |jobs|
      ensures Exists(DiskAfter(jobs, disk, wrote, |jobs|), jobs[k].vOutput)
    {
      assert JobStatus(jobs, disk, wrote, k) == Finished;
      DiskAfterKeeps(jobs, disk, wrote, k + 1, |jobs|, jobs[k].vOutput);
    }
  }

  /** Every output name carries a marker that the source filter rejects, so a rerun never transcodes its own outputs. */
  lemma OutputsAreNeverSources(input: string, res: Resolution, c: Codec, movieExts: seq<string>)
    ensures !IsSource(OutputPath(input, res, c), movieExts)
  {
    var stem := DropLast(input, 4);
    match res
    case Proxy =>
      assert OutputPath(input, res, c) == stem + (ProxyTag + ".") + "mov";
      ContainsMiddle(stem, ProxyTag + ".", "mov");
    case FullRes =>
      match c
      case IsProres =>
        assert OutputPath(input, res, c) == stem + (TagText(Prores) + ".") + "mov";
        ContainsMiddle(stem, TagText(Prores) + ".", "mov");
      case IsMjpeg =>
        assert OutputPath(input, res, c) == stem + (TagText(Mjpeg) + ".") + "mov";
        ContainsMiddle(stem, TagText(Mjpeg) + ".", "mov");
      case IsH264 =>
        assert OutputPath(input, res, c) == stem + TagText(H264) + ".mkv";
        ContainsMiddle(stem, TagText(H264), ".mkv");
  }

  /** A folder holding a clip and its proxy yields the clip alone as a source. */
  lemma ClipWithProxySources(clip: string, proxy: string, movieExts: seq<string>)
    requires clip == "/v/clip1.mov" && proxy == "/v/clip1_proxy.mov" && movieExts == [".mov"]
    ensures Sources([clip, proxy], movieExts) == [clip]
  {
    ClipIsSource(clip, movieExts);
    ProxyIsNotSource(proxy, movieExts);
    assert [clip, proxy][..1] == [clip];
    assert Sources([clip], movieExts) == [clip] by {
      assert [clip][..0] == [];
    }
  }

  lemma ClipIsSource(clip: string, movieExts: seq<string>)
    requires clip == "/v/clip1.mov" && movieExts == [".mov"]
    ensures IsSource(clip, movieExts)
  {
    assert TakeLast(clip, 4) == ".mov";
    assert Lower(".mov") == ".mov";
    NotContainsFirstChar(clip, ProxyTag + ".");
    NotContainsFirstChar(clip, TagText(Mjpeg) + ".");
    NotContainsFirstChar(clip, TagText(Prores) + ".");
    NotContainsFirstChar(clip, TagText(H264));
  }

  lemma ProxyIsNotSource(proxy: string, movieExts: seq<string>)
    requires proxy == "/v/clip1_proxy.mov"
    ensures !IsSource(proxy, movieExts)
  {
    assert proxy == "/v/clip1" + (ProxyTag + ".") + "mov";
    ContainsMiddle("/v/clip1", ProxyTag + ".", "mov");
  }

  /**
   * A proxy-only run over that clip plans one job, writing to the existing
   * proxy's name; since that file is there, the job counts as FINISHED.
   */
  lemma ClipWithProxyJob(stem: string, clip: string, proxy: string, disk: Disk, s: Settings, wrote: nat -> bool)
    requires stem == "/v/clip1" && clip == stem + ".mov" && proxy == stem + ProxyTag + ".mov"
    requires disk == Disk([clip, proxy])
    requires s == Settings(true, 640, 360, false, 1920, 1080, IsProres, 48000, false, false, false)
    ensures var jobs := PlannedJobs("ffmpeg", "/v/", [clip], s, "25");
      && |jobs| == 1 && jobs[0].vOutput == proxy
      && JobStatus(jobs, disk, wrote, 0) == Finished
  {
    var jobs := PlannedJobs("ffmpeg", "/v/", [clip], s, "25");
    assert jobs[0].vOutput == OutputPath(clip, Proxy, IsProres);
    OutputPathRules(clip, Proxy, IsProres);
    assert DropLast(clip, 4) == stem;
    PreexistingOutputCountsAsSuccess(jobs, disk, wrote, 0);
  }
}

=== FILE: files.dfy ===
/**
 * The filesystem as the add-on sees it: which paths exist, the listing order
 * that `glob.glob` reports, `os.path.splitext` and `os.path.split`.
 */
module Files {
  import opened Wrappers
  import opened PyStr

  /**
   * Every regular file, by the path `glob` spells it, in the order a
   * directory scan reports it. `glob.glob` keeps this order; the model does
   * not assume it is sorted.
   */
  datatype Disk = Disk(listing: seq<string>)

  /** `os.path.isfile(path)` and `os.path.exists(path)`. */
  predicate Exists(disk: Disk, path: string) {
    path in disk.listing
  }

  /** `s.rfind(c)`: the index of the last `c` in `s`, or -1. */
  function LastIndexOf(s: string, c: char): (r: int)
    ensures -1 <= r < |s|
    ensures r >= 0 ==> s[r] == c
    ensures forall k :: r < k < |s| ==> s[k] != c
    decreases |s|
  {
    if |s| == 0 then -1
    else if s[|s| - 1] == c then |s| - 1
    else LastIndexOf(s[..|s| - 1], c)
  }

  predicate AllDots(s: string) {
    forall k :: 0 <= k < |s| ==> s[k] == '.'
  }

  /** An extension as `splitext` returns it: a dot, then neither a dot nor a separator. */
  predicate WellFormedExt(e: string) {
    |e| >= 1 && e[0] == '.' && '.' !in e[1..] && '/' !in e
  }

  /**
   * `os.path.splitext` on a POSIX path: split at the last dot of the last
   * path component, unless that component is nothing but dots before it
   * (a leading-dot name such as ".mov" has no extension).
   */
  function SplitExt(p: string): (r: (string, string))
    ensures r.0 + r.1 == p
    ensures r.1 == "" || WellFormedExt(r.1)
  {
    var sep := LastIndexOf(p, '/');
    var dot := LastIndexOf(p, '.');
    if sep < dot && !AllDots(p[sep + 1..dot]) then
      TailFromLastDot(p, sep, dot);
      (p[..dot], p[dot..])
    else
      assert p + "" == p;
      (p, "")
  }

  /** Cut at a dot after which there is neither a dot nor, past `sep`, a separator, the tail is a well-formed extension. */
  lemma TailFromLastDot(p: string, sep: int, dot: int)
    requires -1 <= sep < dot < |p| && p[dot] == '.'
    requires forall k :: dot < k < |p| ==> p[k] != '.'
    requires forall k :: sep < k < |p| ==> p[k] != '/'
    ensures p[..dot] + p[dot..] == p
    ensures WellFormedExt(p[dot..])
  {
    var e := p[dot..];
    assert p[..dot] + e == p;
    assert '.' !in e[1..] by {
      forall k | 0 <= k < |e[1..]| ensures e[1..][k] != '.' {
        assert e[1..][k] == p[dot + 1 + k];
      }
    }
    assert '/' !in e by {
      forall k | 0 <= k < |e| ensures e[k] != '/' {
        assert e[k] == p[dot + k];
      }
    }
  }

  /** Where the stem ends in an ordinary character, `splitext` cuts exactly before a well-formed extension. */
  lemma SplitExtAt(b: string, e: string)
    requires |b| > 0 && b[|b| - 1] != '.' && b[|b| - 1] != '/'
    requires WellFormedExt(e)
    ensures SplitExt(b + e) == (b, e)
  {
    var p := b + e;
    forall k | |b| < k < |p| ensures p[k] != '.' && p[k] != '/' {
      assert p[k] == e[1..][k - |b| - 1];
    }
    assert p[|b|] == '.';
    var dot := LastIndexOf(p, '.');
    var sep := LastIndexOf(p, '/');
    assert dot == |b|;
    assert sep < |b| - 1;
    assert p[sep + 1..dot][|b| - 1 - (sep + 1)] == b[|b| - 1];
    assert p[..dot] == b && p[dot..] == e;
  }

  /** `name` is a match for the glob pattern `prefix + ".*"`: the prefix, a dot, then no path separator. */
  predicate MatchesDotStar(f: string, prefix: string) {
    IsPrefix(prefix + ".", f) && '/' !in f[|prefix| + 1..]
  }

  function GlobIn(listing: seq<string>, prefix: string): (r: seq<string>)
    ensures forall f :: f in r <==> f in listing && MatchesDotStar(f, prefix)
    decreases |listing|
  {
    if listing == [] then []
    else
      var rest := GlobIn(listing[..|listing| - 1], prefix);
      var last := listing[|listing| - 1];
      assert listing == listing[..|listing| - 1] + [last];
      if MatchesDotStar(last, prefix) then rest + [last] else rest
  }

  /** `glob.glob(prefix + ".*")`: the matching files, in listing order. */
  function Glob(disk: Disk, prefix: string): seq<string> {
    GlobIn(disk.listing, prefix)
  }

  /** `f` is in directory `folder` (which ends in a separator) and its name matches `*.*` without being hidden. */
  predicate MatchesStarDotStar(f: string, folder: string) {
    IsPrefix(folder, f) && |f| > |folder| && f[|folder|] != '.'
    && '/' !in f[|folder|..] && '.' in f[|folder|..]
  }

  function GlobFolderIn(listing: seq<string>, folder: string): (r: seq<string>)
    ensures forall f :: f in r <==> f in listing && MatchesStarDotStar(f, folder)
    decreases |listing|
  {
    if listing == [] then []
    else
      var rest := GlobFolderIn(listing[..|listing| - 1], folder);
      var last := listing[|listing| - 1];
      assert listing == listing[..|listing| - 1] + [last];
      if MatchesStarDotStar(last, folder) then rest + [last] else rest
  }

  /** `glob.glob(folder + "*.*")`, in listing order. */
  function GlobFolder(disk: Disk, folder: string): seq<string> {
    GlobFolderIn(disk.listing, folder)
  }

  /** Candidate `i` exists and none before it does. */
  predicate IsFirstExisting(cands: seq<string>, disk: Disk, i: int) {
    0 <= i < |cands| && Exists(disk, cands[i])
    && forall k :: 0 <= k < i ==> !Exists(disk, cands[k])
  }

  /** The first candidate path that exists, tried in order; `None` when none does. */
  function FirstExisting(cands: seq<string>, disk: Disk): (r: Option<string>)
    ensures r.None? <==> forall i :: 0 <= i < |cands| ==> !Exists(disk, cands[i])
    ensures r.Some? ==> exists i :: IsFirstExisting(cands, disk, i) && cands[i] == r.value
    decreases |cands|
  {
    if cands == [] then None
    else if Exists(disk, cands[0]) then
      assert IsFirstExisting(cands, disk, 0);
      Some(cands[0])
    else
      var r := FirstExisting(cands[1..], disk);
      assert r.Some? ==> exists i :: IsFirstExisting(cands, disk, i) && cands[i] == r.value by {
        if r.Some? {
          var i :| IsFirstExisting(cands[1..], disk, i) && cands[1..][i] == r.value;
          assert IsFirstExisting(cands, disk, i + 1);
        }
      }
      assert r.None? ==> forall i :: 0 <= i < |cands| ==> !Exists(disk, cands[i]) by {
        if r.None? {
          forall i | 0 < i < |cands| ensures !Exists(disk, cands[i]) {
            assert cands[i] == cands[1..][i - 1];
          }
        }
      }
      r
  }

  /** `s` with its trailing separators removed. */
  function RStripSlashes(s: string): (r: string)
    ensures IsPrefix(r, s) && AllSlashes(s[|r|..])
    ensures r == [] || r[|r| - 1] != '/'
    decreases |s|
  {
    if |s| > 0 && s[|s| - 1] == '/' then
      var r := RStripSlashes(s[..|s| - 1]);
      assert forall k :: |r| <= k < |s| - 1 ==> s[k] == s[..|s| - 1][|r|..][k - |r|];
      r
    else s
  }

  predicate AllSlashes(s: string) {
    forall k :: 0 <= k < |s| ==> s[k] == '/'
  }

  /**
   * `os.path.split(path)[0] + os.sep`: the directory part of `path` (trailing
   * separators stripped unless it is made of separators only), then one
   * separator.
   */
  function VideosFolder(path: string): (folder: string)
    ensures |folder| >= 1 && folder[|folder| - 1] == '/'
    ensures '/' !in path ==> folder == "/"
    ensures var head := path[..LastIndexOf(path, '/') + 1];
            var dir := folder[..|folder| - 1];
            && (AllSlashes(head) ==> dir == head)
            && (!AllSlashes(head) ==>
                  IsPrefix(dir, head) && dir != [] && dir[|dir| - 1] != '/' && AllSlashes(head[|dir|..]))
  {
    var dir := DirPart(path[..LastIndexOf(path, '/') + 1]);
    assert (dir + "/")[..|dir|] == dir;
    dir + "/"
  }

  /** The head of a split with its trailing separators stripped, unless it is made of separators only. */
  function DirPart(head: string): (dir: string)
    ensures AllSlashes(head) ==> dir == head
    ensures !AllSlashes(head) ==>
      IsPrefix(dir, head) && dir != [] && dir[|dir| - 1] != '/' && AllSlashes(head[|dir|..])
  {
    if head != "" && !AllSlashes(head) then
      var dir := RStripSlashes(head);
      assert head[0..] == head;
      dir
    else head
  }
}

=== FILE: naming.dfy ===
/**
 * The naming convention that pairs an original clip with its proxy and its
 * full-resolution intermediates, and the two searches that retarget a strip
 * from one to the other (Proxy_Editing_ToProxy and Proxy_Editing_ToFullRes).
 */
module Naming {
  import opened Wrappers
  import opened PyStr
  import opened Files

  /** The codec tags of intermediate files. */
  datatype Tag = Prores | Mjpeg | H264

  function TagText(t: Tag): string {
    match t
    case Prores => "_PRORES"
    case Mjpeg => "_MJPEG"
    case H264 => "_h264"
  }

  /** The fixed number of characters the add-on cuts from the stem for each tag (-7, -6, -5). */
  function TagLen(t: Tag): (n: nat)
    ensures n == |TagText(t)|
  {
    match t
    case Prores => 7
    case Mjpeg => 6
    case H264 => 5
  }

  /** The order in which the add-on tests the tags: lower first. */
  function Rank(t: Tag): nat {
    match t
    case Prores => 0
    case Mjpeg => 1
    case H264 => 2
  }

  const ProxyTag := "_proxy"

  /** The fixed number of characters the full-res search cuts from a proxy stem. */
  const ProxyTagLen := 6

  /** What a path is, judged from its text alone, in the add-on's order of tests. */
  datatype Role = AlreadyProxy | Tagged(tag: Tag) | Untagged

  function Classify(p: string): (r: Role)
    ensures r.AlreadyProxy? <==> Contains(p, ProxyTag + ".")
    ensures r.Tagged? ==>
      && !Contains(p, ProxyTag + ".")
      && Contains(p, TagText(r.tag) + ".")
      && forall u :: Rank(u) < Rank(r.tag) ==> !Contains(p, TagText(u) + ".")
    ensures r.Untagged? <==>
      !Contains(p, ProxyTag + ".") && forall u :: !Contains(p, TagText(u) + ".")
  {
    if Contains(p, ProxyTag + ".") then AlreadyProxy
    else if Contains(p, TagText(Prores) + ".") then Tagged(Prores)
    else if Contains(p, TagText(Mjpeg) + ".") then Tagged(Mjpeg)
    else if Contains(p, TagText(H264) + ".") then Tagged(H264)
    else Untagged
  }

  /** The stem checkProxyFile builds on: the `splitext` base with the tag's fixed length cut off. */
  function TaggedStem(fPath: string, t: Tag): string {
    DropLast(SplitExt(fPath).0, TagLen(t))
  }

  /**
   * The proxy files checkProxyFile tries for a tagged path, in order: the
   * stem with `_proxy` and the original extension, then the stem with
   * `_proxy` and each movie extension in turn.
   */
  function ProxyCandidates(fPath: string, t: Tag, movieExts: seq<string>): seq<string> {
    var stem := TaggedStem(fPath, t);
    [stem + ProxyTag + SplitExt(fPath).1]
    + seq(|movieExts|, i requires 0 <= i < |movieExts| => stem + ProxyTag + movieExts[i])
  }

  lemma FirstExistingAt(cands: seq<string>, disk: Disk, i: int)
    requires IsFirstExisting(cands, disk, i)
    ensures FirstExisting(cands, disk) == Some(cands[i])
  {
    var r := FirstExisting(cands, disk);
    var j :| IsFirstExisting(cands, disk, j) && cands[j] == r.value;
    assert j == i;
  }

  /** checkProxyFile: the first candidate proxy file that exists, or `None`. */
  method CheckProxyFile(fPath: string, t: Tag, disk: Disk, movieExts: seq<string>)
    returns (found: Option<string>)
    ensures found == FirstExisting(ProxyCandidates(fPath, t, movieExts), disk)
    ensures found.Some? ==> Exists(disk, found.value) && Contains(found.value, ProxyTag)
  {
    ghost var cands := ProxyCandidates(fPath, t, movieExts);
    var (basePath, ext) := SplitExt(fPath);
    var stem := DropLast(basePath, TagLen(t));
    var proxyFile := stem + ProxyTag + ext;
    ContainsMiddle(stem, ProxyTag, ext);
    if proxyFile in disk.listing {
      FirstExistingAt(cands, disk, 0);
      return Some(proxyFile);
    }
    for i := 0 to |movieExts|
      invariant forall k :: 0 <= k <= i ==> !Exists(disk, cands[k])
    {
      proxyFile := stem + ProxyTag + movieExts[i];
      if proxyFile in disk.listing {
        assert cands[i + 1] == proxyFile;
        FirstExistingAt(cands, disk, i + 1);
        ContainsMiddle(stem, ProxyTag, movieExts[i]);
        return Some(proxyFile);
      }
    }
    return None;
  }

  /**
   * Where the to-proxy pass moves a strip whose path is `p`, or `None` when it
   * leaves the strip alone: nothing for a proxy, the checkProxyFile result for
   * a tagged path, and for an untagged one the first `<base>_proxy.*` file,
   * provided its own extension is a movie extension.
   */
  function ProxyTarget(p: string, disk: Disk, movieExts: seq<string>): (r: Option<string>)
    ensures r.Some? ==> Exists(disk, r.value) && Contains(r.value, ProxyTag)
  {
    match Classify(p)
    case AlreadyProxy => None
    case Tagged(t) =>
      TaggedProxyCarriesTag(p, t, disk, movieExts);
      FirstExisting(ProxyCandidates(p, t, movieExts), disk)
    case Untagged =>
      var base := SplitExt(p).0;
      var matches := Glob(disk, base + ProxyTag);
      if matches != [] && Lower(SplitExt(p).1) in movieExts then
        GlobMatchCarriesTag(disk, base);
        Some(matches[0])
      else
        None
  }

  /** The candidate checkProxyFile returns carries the `_proxy` tag. */
  lemma TaggedProxyCarriesTag(p: string, t: Tag, disk: Disk, movieExts: seq<string>)
    ensures var r := FirstExisting(ProxyCandidates(p, t, movieExts), disk);
      r.Some? ==> Contains(r.value, ProxyTag)
  {
    var cands := ProxyCandidates(p, t, movieExts);
    var r := FirstExisting(cands, disk);
    if r.Some? {
      var i :| IsFirstExisting(cands, disk, i) && cands[i] == r.value;
      CandidateCarriesTag(p, t, movieExts, i);
    }
  }

  lemma CandidateCarriesTag(p: string, t: Tag, movieExts: seq<string>, i: nat)
    requires i < |ProxyCandidates(p, t, movieExts)|
    ensures Contains(ProxyCandidates(p, t, movieExts)[i], ProxyTag)
  {
    var stem := TaggedStem(p, t);
    if i == 0 {
      ContainsMiddle(stem, ProxyTag, SplitExt(p).1);
    } else {
      assert ProxyCandidates(p, t, movieExts)[i] == stem + ProxyTag + movieExts[i - 1];
      ContainsMiddle(stem, ProxyTag, movieExts[i - 1]);
    }
  }

  /** The first `<base>_proxy.*` match exists and carries the `_proxy` tag. */
  lemma GlobMatchCarriesTag(disk: Disk, base: string)
    requires Glob(disk, base + ProxyTag) != []
    ensures var q := Glob(disk, base + ProxyTag)[0];
      Exists(disk, q) && Contains(q, ProxyTag)
  {
    var q := Glob(disk, base + ProxyTag)[0];
    assert q in Glob(disk, base + ProxyTag);
    assert MatchesDotStar(q, base + ProxyTag);
    assert q == base + ProxyTag + q[|base| + |ProxyTag|..];
    ContainsMiddle(base, ProxyTag, q[|base| + |ProxyTag|..]);
  }

  /**
   * The strip path after the to-proxy pass, as intended: the proxy found, or
   * the old path when there is none. The strip always keeps a path, and a new
   * one is an existing file carrying the `_proxy` tag.
   */
  function RetargetToProxy(p: string, disk: Disk, movieExts: seq<string>): (r: string)
    ensures r == p || (Exists(disk, r) && Contains(r, ProxyTag))
    ensures r != p ==> Classify(p) != AlreadyProxy
  {
    ProxyTarget(p, disk, movieExts).GetOr(p)
  }

  /**
   * The value the to-proxy branches as the add-on writes them assign to the
   * strip path: `None` stands for Python's None, which the tagged branches
   * assign when checkProxyFile finds no proxy. What Blender then does with
   * that assignment (a cleared path, or a TypeError that ends the pass at
   * this strip) lies outside the add-on's code.
   */
  function RetargetToProxyAsWritten(p: string, disk: Disk, movieExts: seq<string>): (r: Option<string>)
    ensures Classify(p) == AlreadyProxy ==> r == Some(p)
    ensures Classify(p).Untagged? ==> r == Some(RetargetToProxy(p, disk, movieExts))
    ensures Classify(p).Tagged? ==>
      var cands := ProxyCandidates(p, Classify(p).tag, movieExts);
      (r.None? <==> forall i :: 0 <= i < |cands| ==> !Exists(disk, cands[i]))
    ensures r.Some? ==> r.value == p || (Exists(disk, r.value) && Contains(r.value, ProxyTag))
  {
    match Classify(p)
    case AlreadyProxy => Some(p)
    case Tagged(t) =>
      TaggedProxyCarriesTag(p, t, disk, movieExts);
      FirstExisting(ProxyCandidates(p, t, movieExts), disk)
    case Untagged => Some(ProxyTarget(p, disk, movieExts).GetOr(p))
  }

  /**
   * For a tagged path with no proxy on disk, the add-on as written assigns
   * None to the strip path; the intended pass keeps the path.
   */
  lemma AsWrittenAssignsNoneOnMiss(p: string, disk: Disk, movieExts: seq<string>)
    requires Classify(p).Tagged?
    requires forall c :: c in ProxyCandidates(p, Classify(p).tag, movieExts) ==> !Exists(disk, c)
    ensures RetargetToProxyAsWritten(p, disk, movieExts) == None
    ensures RetargetToProxy(p, disk, movieExts) == p
  {
    var cands := ProxyCandidates(p, Classify(p).tag, movieExts);
    assert forall i :: 0 <= i < |cands| ==> cands[i] in cands;
  }

  /** Everywhere else the add-on as written and the intended pass agree. */
  lemma AsWrittenAgreesOtherwise(p: string, disk: Disk, movieExts: seq<string>)
    requires RetargetToProxyAsWritten(p, disk, movieExts).Some?
    ensures RetargetToProxyAsWritten(p, disk, movieExts) == Some(RetargetToProxy(p, disk, movieExts))
  {
  }

  /** A path that already names a proxy is left as it is, whatever other tag it also carries. */
  lemma ProxyPathIsLeftAlone(p: string, disk: Disk, movieExts: seq<string>, t: Tag)
    requires Contains(p, ProxyTag + ".") && Contains(p, TagText(t) + ".")
    ensures Classify(p) == AlreadyProxy
    ensures RetargetToProxy(p, disk, movieExts) == p
  {
  }

  /**
   * For `b + tag + ext` (no higher-ranked tag and no proxy tag in it), the
   * to-proxy pass cuts exactly the tag and looks for `b + "_proxy" + ext`
   * first, then for `b + "_proxy" + e` for each movie extension `e` in turn.
   */
  lemma TaggedProxyLookup(b: string, t: Tag, ext: string, disk: Disk, movieExts: seq<string>)
    requires WellFormedExt(ext)
    requires !Contains(b + TagText(t) + ext, ProxyTag + ".")
    requires forall u :: Rank(u) < Rank(t) ==> !Contains(b + TagText(t) + ext, TagText(u) + ".")
    ensures Classify(b + TagText(t) + ext) == Tagged(t)
    ensures TaggedStem(b + TagText(t) + ext, t) == b
    ensures ProxyTarget(b + TagText(t) + ext, disk, movieExts)
         == FirstExisting([b + ProxyTag + ext]
                          + seq(|movieExts|, i requires 0 <= i < |movieExts| => b + ProxyTag + movieExts[i]), disk)
  {
    var p := b + TagText(t) + ext;
    assert p == b + (TagText(t) + ".") + ext[1..];
    ContainsMiddle(b, TagText(t) + ".", ext[1..]);
    var r := Classify(p);
    assert r.Tagged? && r.tag == t by {
      assert !r.AlreadyProxy?;
      assert !r.Untagged?;
      assert Rank(r.tag) >= Rank(t);
      assert Rank(t) >= Rank(r.tag);
    }
    SplitExtAt(b + TagText(t), ext);
    assert (b + TagText(t))[..|b + TagText(t)| - TagLen(t)] == b;
    assert TaggedStem(p, t) == b;
  }

  /**
   * For an untagged path the to-proxy pass retargets to the first
   * `<base>_proxy.*` file exactly when there is one and the path's own
   * extension, lower-cased, is a movie extension; otherwise the path stays.
   */
  lemma UntaggedProxyLookup(p: string, disk: Disk, movieExts: seq<string>)
    requires Classify(p) == Untagged
    ensures var base := SplitExt(p).0;
            var matches := Glob(disk, base + ProxyTag);
            && (RetargetToProxy(p, disk, movieExts) != p ==>
                  matches != [] && Lower(SplitExt(p).1) in movieExts)
            && (matches != [] && Lower(SplitExt(p).1) in movieExts ==>
                  RetargetToProxy(p, disk, movieExts) == matches[0]
                  && MatchesDotStar(matches[0], base + ProxyTag))
  {
    var base := SplitExt(p).0;
    var matches := Glob(disk, base + ProxyTag);
    if matches != [] {
      assert matches[0] in matches;
    }
  }

  /** The files Proxy_Editing_ToFullRes looks for, given the stem `f_name`: the ProRes, MJPEG and H.264 intermediates, then the original. */
  predicate FullResNameOf(f: string, stem: string) {
    || MatchesDotStar(f, stem + TagText(Prores))
    || MatchesDotStar(f, stem + TagText(Mjpeg))
    || MatchesDotStar(f, stem + TagText(H264))
    || MatchesDotStar(f, stem)
  }

  /**
   * The full-res search on a stem: the first `<stem>_PRORES.*` file, else the
   * first `<stem>_MJPEG.*`, else the first `<stem>_h264.*`, else the first
   * `<stem>.*`, else nothing.
   */
  function FullResSearch(stem: string, disk: Disk): (r: Option<string>)
    ensures r.Some? ==> Exists(disk, r.value) && FullResNameOf(r.value, stem)
    ensures r.None? <==> forall f :: Exists(disk, f) ==> !FullResNameOf(f, stem)
  {
    var prores := Glob(disk, stem + TagText(Prores));
    var mjpeg := Glob(disk, stem + TagText(Mjpeg));
    var h264 := Glob(disk, stem + TagText(H264));
    var bare := Glob(disk, stem);
    if prores != [] then assert prores[0] in prores; Some(prores[0])
    else if mjpeg != [] then assert mjpeg[0] in mjpeg; Some(mjpeg[0])
    else if h264 != [] then assert h264[0] in h264; Some(h264[0])
    else if bare != [] then assert bare[0] in bare; Some(bare[0])
    else None
  }

  /**
   * Where the to-full-res pass moves a strip whose path is `p`, or `None`:
   * only a `_proxy.` path is retargeted, searching from the `splitext` base
   * with the 6-character `_proxy` cut off.
   */
  function FullResTarget(p: string, disk: Disk): Option<string> {
    if Contains(p, ProxyTag + ".") then
      FullResSearch(DropLast(SplitExt(p).0, ProxyTagLen), disk)
    else
      None
  }

  /** The strip path after the to-full-res pass: the full-res file found, or the old path. */
  function RetargetToFullRes(p: string, disk: Disk): (r: string)
    ensures r != p ==> Contains(p, ProxyTag + ".") && Exists(disk, r)
  {
    FullResTarget(p, disk).GetOr(p)
  }

  /**
   * For `b + "_proxy" + ext` the to-full-res pass recovers exactly `b` and
   * searches the full-res names of `b` in priority order; with no match the
   * path stays. Any other path that has no `_proxy.` stays too.
   */
  lemma FullResLookup(b: string, ext: string, disk: Disk)
    requires WellFormedExt(ext)
    ensures FullResTarget(b + ProxyTag + ext, disk) == FullResSearch(b, disk)
    ensures FullResSearch(b, disk).None? ==> RetargetToFullRes(b + ProxyTag + ext, disk) == b + ProxyTag + ext
  {
    var p := b + ProxyTag + ext;
    assert p == b + (ProxyTag + ".") + ext[1..];
    ContainsMiddle(b, ProxyTag + ".", ext[1..]);
    SplitExtAt(b + ProxyTag, ext);
    assert (b + ProxyTag)[..|b + ProxyTag| - ProxyTagLen] == b;
  }

  /** A path without `_proxy.` is never touched by the to-full-res pass. */
  lemma NonProxyPathIsLeftAlone(p: string, disk: Disk)
    requires !Contains(p, ProxyTag + ".")
    ensures RetargetToFullRes(p, disk) == p
  {
  }

  /** The full-res search honours its priority: a file under a tag of rank `t` means the result carries a tag of rank at most `t`. */
  lemma FullResSearchPriority(stem: string, disk: Disk, t: Tag, f: string)
    requires Exists(disk, f) && MatchesDotStar(f, stem + TagText(t))
    ensures FullResSearch(stem, disk).Some?
    ensures exists u :: Rank(u) <= Rank(t) && MatchesDotStar(FullResSearch(stem, disk).value, stem + TagText(u))
  {
    var r := FullResSearch(stem, disk).value;
    assert f in Glob(disk, stem + TagText(t));
    if Glob(disk, stem + TagText(Prores)) != [] {
      assert Glob(disk, stem + TagText(Prores))[0] in Glob(disk, stem + TagText(Prores));
      assert MatchesDotStar(r, stem + TagText(Prores));
    } else if Glob(disk, stem + TagText(Mjpeg)) != [] {
      assert Glob(disk, stem + TagText(Mjpeg))[0] in Glob(disk, stem + TagText(Mjpeg));
      assert t != Prores;
      assert MatchesDotStar(r, stem + TagText(Mjpeg));
    } else {
      assert t == H264;
      assert Glob(disk, stem + TagText(H264))[0] in Glob(disk, stem + TagText(H264));
      assert MatchesDotStar(r, stem + TagText(H264));
    }
  }
}

=== FILE: pystr.dfy ===
/**
 * The few Python string operations the add-on is built from: the `in`
 * operator on strings, the negative slices `s[:-k]` and `s[-k:]`,
 * `str.lower()`, `str()` of an integer and `%s` formatting.
 */
module PyStr {

  predicate IsPrefix(p: string, s: string) {
    |p| <= |s| && s[..|p|] == p
  }

  predicate IsSuffix(x: string, s: string) {
    |x| <= |s| && s[|s| - |x|..] == x
  }

  /** `sub` occurs in `s` starting at index `i`. */
  predicate OccursAt(s: string, sub: string, i: int) {
    0 <= i && i + |sub| <= |s| && s[i..i + |sub|] == sub
  }

  lemma OccursShift(s: string, sub: string, i: int)
    requires |s| > 0 && 0 <= i
    ensures OccursAt(s, sub, i + 1) <==> OccursAt(s[1..], sub, i)
  {
    if i + 1 + |sub| <= |s| {
      assert s[i + 1..i + 1 + |sub|] == s[1..][i..i + |sub|];
    }
  }

  /** A window of `s` that differs from `sub` at one position is not an occurrence. */
  lemma MismatchAt(s: string, sub: string, i: nat, k: nat)
    requires i + |sub| <= |s| && k < |sub| && s[i + k] != sub[k]
    ensures !OccursAt(s, sub, i)
  {
    assert s[i..i + |sub|][k] == s[i + k];
  }

  /** Python's `sub in s`, computed by scanning `s` from the left. */
  function Contains(s: string, sub: string): (b: bool)
    ensures b <==> exists i :: OccursAt(s, sub, i)
    decreases |s|
  {
    if IsPrefix(sub, s) then
      assert OccursAt(s, sub, 0);
      true
    else if |s| == 0 then
      assert forall i :: !OccursAt(s, sub, i);
      false
    else
      var rest := Contains(s[1..], sub);
      assert rest ==> exists i :: OccursAt(s, sub, i) by {
        if rest {
          var i :| OccursAt(s[1..], sub, i);
          OccursShift(s, sub, i);
        }
      }
      assert (exists i :: OccursAt(s, sub, i)) ==> rest by {
        if exists i :: OccursAt(s, sub, i) {
          var i :| OccursAt(s, sub, i);
          assert i != 0;
          OccursShift(s, sub, i - 1);
        }
      }
      rest
  }

  /** A non-empty `sub` whose first character never appears in `s` does not occur in it. */
  lemma NotContainsFirstChar(s: string, sub: string)
    requires |sub| > 0 && sub[0] !in s
    ensures !Contains(s, sub)
  {
    forall i | 0 <= i && i + |sub| <= |s|
      ensures !OccursAt(s, sub, i)
    {
      assert s[i..i + |sub|][0] == s[i];
    }
  }

  /** A sub-string of a prefix of `s` is a sub-string of `s`. */
  lemma ContainsOfPrefix(p: string, s: string, sub: string)
    requires IsPrefix(p, s) && Contains(p, sub)
    ensures Contains(s, sub)
  {
    var i :| OccursAt(p, sub, i);
    assert s[i..i + |sub|] == p[i..i + |sub|];
    assert OccursAt(s, sub, i);
  }

  /** The middle of a concatenation is one of its sub-strings. */
  lemma ContainsMiddle(a: string, m: string, c: string)
    ensures Contains(a + m + c, m)
  {
    assert (a + m + c)[|a|..|a| + |m|] == m;
    assert OccursAt(a + m + c, m, |a|);
  }

  /** Python's `s[:-k]` for a positive `k`: all but the last `k` characters, or "" when `s` is shorter. */
  function DropLast(s: string, k: nat): string
    requires k > 0
  {
    if k <= |s| then s[..|s| - k] else ""
  }

  /** Python's `s[-k:]` for a positive `k`: the last `k` characters, or all of `s` when it is shorter. */
  function TakeLast(s: string, k: nat): string
    requires k > 0
  {
    if k <= |s| then s[|s| - k..] else s
  }

  function LowerChar(c: char): char {
    if 'A' <= c <= 'Z' then (c as int + 32) as char else c
  }

  /** `str.lower()` on ASCII letters; every other character is kept. */
  function Lower(s: string): string {
    seq(|s|, i requires 0 <= i < |s| => LowerChar(s[i]))
  }

  predicate IsDigit(c: char) {
    '0' <= c <= '9'
  }

  predicate AllDigits(s: string) {
    forall i :: 0 <= i < |s| ==> IsDigit(s[i])
  }

  /** The number a string of decimal digits spells, most significant digit first. */
  function DecimalValue(s: string): nat
    requires AllDigits(s)
  {
    if s == [] then 0
    else DecimalValue(s[..|s| - 1]) * 10 + (s[|s| - 1] as int - '0' as int)
  }

  /** `str(n)` for a natural number: its decimal digits, most significant first. */
  function NatToDecimal(n: nat): (r: string)
    ensures |r| >= 1 && AllDigits(r)
    ensures DecimalValue(r) == n
    ensures (r[0] == '0') <==> n == 0
    decreases n
  {
    if n < 10 then [('0' as int + n) as char]
    else
      var front := NatToDecimal(n / 10);
      var r := front + [('0' as int + n % 10) as char];
      assert r[..|front|] == front;
      r
  }

  /** `str(i)` for an integer, with a leading '-' when it is negative. */
  function IntToDecimal(i: int): string {
    if i < 0 then "-" + NatToDecimal(-i) else NatToDecimal(i)
  }

  predicate NoPercent(s: string) {
    forall i :: 0 <= i < |s| ==> s[i] != '%'
  }

  /**
   * `template % args` for a template whose only conversions are `%s`: each
   * `%s` in turn is replaced by the next argument.
   */
  function PercentFormat(template: string, args: seq<string>): string
    decreases |template|
  {
    if template == [] then []
    else if |template| >= 2 && template[0] == '%' && template[1] == 's' && args != [] then
      args[0] + PercentFormat(template[2..], args[1..])
    else [template[0]] + PercentFormat(template[1..], args)
  }

  /** The template made of `pieces` with a `%s` between each two. */
  function TemplateOf(pieces: seq<string>): string
    requires |pieces| >= 1
    decreases |pieces|
  {
    if |pieces| == 1 then pieces[0] else pieces[0] + ("%s" + TemplateOf(pieces[1..]))
  }

  /** `pieces` with one argument between each two. */
  function Interleave(pieces: seq<string>, args: seq<string>): string
    requires |pieces| == |args| + 1
    decreases |args|
  {
    if args == [] then pieces[0] else pieces[0] + (args[0] + Interleave(pieces[1..], args[1..]))
  }

  lemma {:induction false} FormatPlain(lit: string, args: seq<string>)
    requires NoPercent(lit)
    ensures PercentFormat(lit, args) == lit
    decreases |lit|
  {
    if lit != [] {
      FormatPlain(lit[1..], args);
    }
  }

  lemma {:induction false} FormatStep(lit: string, rest: string, x: string, args: seq<string>)
    requires NoPercent(lit)
    ensures PercentFormat(lit + ("%s" + rest), [x] + args) == lit + (x + PercentFormat(rest, args))
    decreases |lit|
  {
    var t := lit + ("%s" + rest);
    if lit == [] {
      assert t == "%s" + rest;
      assert t[2..] == rest;
      assert ([x] + args)[1..] == args;
    } else {
      assert t[1..] == lit[1..] + ("%s" + rest);
      FormatStep(lit[1..], rest, x, args);
    }
  }

  /**
   * Formatting a template with as many arguments as it has `%s` conversions
   * puts the arguments, in order, between the template's literal pieces.
   */
  lemma {:induction false} FormatTemplate(pieces: seq<string>, args: seq<string>)
    requires |pieces| == |args| + 1
    requires forall i :: 0 <= i < |pieces| ==> NoPercent(pieces[i])
    ensures PercentFormat(TemplateOf(pieces), args) == Interleave(pieces, args)
    decreases |args|
  {
    if args == [] {
      FormatPlain(pieces[0], args);
    } else {
      FormatTemplate(pieces[1..], args[1..]);
      assert args == [args[0]] + args[1..];
      FormatStep(pieces[0], TemplateOf(pieces[1..]), args[0], args[1..]);
    }
  }
}

=== FILE: roundtrip.dfy ===
/**
 * How the two naming conventions meet: the files execute writes are the
 * files the proxy toggles look for, and toggling to proxy and back brings a
 * strip home when the folder is unambiguous.
 */
module RoundTrip {
  import opened Wrappers
  import opened PyStr
  import opened Files
  import opened Naming
  import opened Transcode
  import opened Batch

  /**
   * A pattern ending in a dot cannot occur across the join of `b` and
   * `tag + ext` unless it already occurs in `b`: the only dot after `b` is
   * the one that opens `ext`, and the character before it ends `tag`.
   */
  lemma NoPatternAcrossTag(b: string, tag: string, ext: string, pat: string)
    requires !Contains(b, pat)
    requires |pat| >= 2 && pat[|pat| - 1] == '.'
    requires |tag| >= 1 && '.' !in tag && pat[|pat| - 2] != tag[|tag| - 1]
    requires WellFormedExt(ext)
    ensures !Contains(b + tag + ext, pat)
  {
    forall i | 0 <= i && i + |pat| <= |b + tag + ext|
      ensures !OccursAt(b + tag + ext, pat, i)
    {
      NoOccurrenceAcrossTag(b, tag, ext, pat, i);
    }
  }

  lemma NoOccurrenceAcrossTag(b: string, tag: string, ext: string, pat: string, i: nat)
    requires !Contains(b, pat)
    requires |pat| >= 2 && pat[|pat| - 1] == '.'
    requires |tag| >= 1 && '.' !in tag && pat[|pat| - 2] != tag[|tag| - 1]
    requires WellFormedExt(ext)
    requires i + |pat| <= |b + tag + ext|
    ensures !OccursAt(b + tag + ext, pat, i)
  {
    var s := b + tag + ext;
    var j := i + |pat| - 1;
    if j < |b| {
      assert s[..|b|] == b;
      WindowInPrefix(s, b, pat, i);
    } else if j == |b| + |tag| {
      assert s[j - 1] == tag[|tag| - 1];
      MismatchAt(s, pat, i, |pat| - 2);
    } else {
      NoDotAfterStem(b, tag, ext, j);
      MismatchAt(s, pat, i, |pat| - 1);
    }
  }

  /** A window that ends inside a prefix `b` of `s` reads the same in both. */
  lemma WindowInPrefix(s: string, b: string, pat: string, i: nat)
    requires |b| <= |s| && s[..|b|] == b && i + |pat| <= |b|
    ensures OccursAt(s, pat, i) == OccursAt(b, pat, i)
  {
    forall k | i <= k < i + |pat|
      ensures s[k] == b[k]
    {
      assert s[..|b|][k] == s[k];
    }
    assert s[i..i + |pat|] == b[i..i + |pat|];
  }

  /** After `b`, the only dot of `b + tag + ext` is the one that opens `ext`. */
  lemma NoDotAfterStem(b: string, tag: string, ext: string, k: nat)
    requires '.' !in tag && WellFormedExt(ext)
    requires |b| <= k < |b + tag + ext| && k != |b| + |tag|
    ensures (b + tag + ext)[k] != '.'
  {
    var s := b + tag + ext;
    if k < |b| + |tag| {
      assert s[k] == tag[k - |b|];
      assert tag[k - |b|] in tag;
    } else {
      assert s[k] == ext[1..][k - |b| - |tag| - 1];
    }
  }

  /** `prefix + "." + rest` matches `prefix.*` when `rest` has no separator. */
  lemma MatchesDotStarOf(prefix: string, rest: string)
    requires '/' !in rest
    ensures MatchesDotStar(prefix + "." + rest, prefix)
  {
    var f := prefix + "." + rest;
    assert f[..|prefix + "."|] == prefix + ".";
    assert f[|prefix| + 1..] == rest;
  }

  /** A string holding `sub + x` holds `sub`. */
  lemma ContainsOfLonger(s: string, sub: string, x: string)
    requires Contains(s, sub + x)
    ensures Contains(s, sub)
  {
    var i :| OccursAt(s, sub + x, i);
    assert s[i..i + |sub|] == (sub + x)[..|sub|];
    assert OccursAt(s, sub, i);
  }

  /** A source carries no marker anywhere in the part that its outputs keep. */
  lemma SourceStemIsClean(input: string, movieExts: seq<string>)
    requires IsSource(input, movieExts)
    ensures var b := DropLast(input, 4);
      && !Contains(b, ProxyTag + ".")
      && !Contains(b, TagText(Prores) + ".")
      && !Contains(b, TagText(Mjpeg) + ".")
      && !Contains(b, TagText(H264) + ".")
  {
    var b := DropLast(input, 4);
    assert IsPrefix(b, input);
    forall pat | pat in [ProxyTag + ".", TagText(Prores) + ".", TagText(Mjpeg) + ".", TagText(H264) + "."]
      ensures !Contains(b, pat)
    {
      if Contains(b, pat) {
        ContainsOfPrefix(b, input, pat);
        if pat == TagText(H264) + "." {
          ContainsOfLonger(input, TagText(H264), ".");
        }
      }
    }
  }

  /**
   * The to-proxy pass on an intermediate that execute wrote for a source
   * recognises its codec tag and looks first for `<stem>_proxy` with the
   * intermediate's own extension, then with each movie extension. For ProRes
   * and MJPEG that first candidate is the proxy execute writes, so when it
   * exists the strip lands on it; for H.264 the first candidate is
   * `<stem>_proxy.mkv`.
   */
  lemma ProxyOfBuiltIntermediate(input: string, c: Codec, disk: Disk, movieExts: seq<string>)
    requires IsSource(input, movieExts)
    ensures var b := DropLast(input, 4);
      var ext := if c == IsH264 then ".mkv" else ".mov";
      && Classify(OutputPath(input, FullRes, c)) == Tagged(CodecTag(c))
      && ProxyTarget(OutputPath(input, FullRes, c), disk, movieExts)
         == FirstExisting([b + ProxyTag + ext]
                          + seq(|movieExts|, i requires 0 <= i < |movieExts| => b + ProxyTag + movieExts[i]), disk)
    ensures c != IsH264 && Exists(disk, OutputPath(input, Proxy, c)) ==>
      RetargetToProxy(OutputPath(input, FullRes, c), disk, movieExts) == OutputPath(input, Proxy, c)
  {
    var b := DropLast(input, 4);
    var t := CodecTag(c);
    var ext := if c == IsH264 then ".mkv" else ".mov";
    OutputPathRules(input, FullRes, c);
    OutputPathRules(input, Proxy, c);
    BuiltIntermediateIsTagged(input, c, movieExts);
    TaggedProxyLookup(b, t, ext, disk, movieExts);
    if c != IsH264 && Exists(disk, OutputPath(input, Proxy, c)) {
      FirstCandidateFound(b + ProxyTag + ext, disk, movieExts, b + ProxyTag);
    }
  }

  /** When the first candidate exists, checkProxyFile returns it. */
  lemma FirstCandidateFound(first: string, disk: Disk, movieExts: seq<string>, prefix: string)
    requires Exists(disk, first)
    ensures FirstExisting([first] + seq(|movieExts|, i requires 0 <= i < |movieExts| => prefix + movieExts[i]), disk)
            == Some(first)
  {
    var cands := [first] + seq(|movieExts|, i requires 0 <= i < |movieExts| => prefix + movieExts[i]);
    assert IsFirstExisting(cands, disk, 0);
    FirstExistingAt(cands, disk, 0);
  }

  /** An intermediate execute writes carries its codec's tag and no tag the to-proxy pass tests before it. */
  lemma BuiltIntermediateIsTagged(input: string, c: Codec, movieExts: seq<string>)
    requires IsSource(input, movieExts)
    ensures var b := DropLast(input, 4);
      var t := CodecTag(c);
      var ext := if c == IsH264 then ".mkv" else ".mov";
      && WellFormedExt(ext)
      && !Contains(b + TagText(t) + ext, ProxyTag + ".")
      && forall u :: Rank(u) < Rank(t) ==> !Contains(b + TagText(t) + ext, TagText(u) + ".")
  {
    var b := DropLast(input, 4);
    var t := CodecTag(c);
    var ext := if c == IsH264 then ".mkv" else ".mov";
    SourceStemIsClean(input, movieExts);
    NoPatternAcrossTag(b, TagText(t), ext, ProxyTag + ".");
    forall u | Rank(u) < Rank(t)
      ensures !Contains(b + TagText(t) + ext, TagText(u) + ".")
    {
      NoPatternAcrossTag(b, TagText(t), ext, TagText(u) + ".");
    }
  }

  /**
   * The to-full-res pass on a proxy that execute wrote searches the
   * full-res names of the source's stem; once an intermediate of the chosen
   * codec exists, the strip lands on a file tagged with that codec or a
   * higher-ranked one, and on the intermediate itself when it is the only
   * full-res name of the stem in the folder.
   */
  lemma FullResOfBuiltProxy(input: string, c: Codec, disk: Disk)
    ensures FullResTarget(OutputPath(input, Proxy, c), disk) == FullResSearch(DropLast(input, 4), disk)
    ensures Exists(disk, OutputPath(input, FullRes, c)) ==>
      exists u :: Rank(u) <= Rank(CodecTag(c))
               && MatchesDotStar(RetargetToFullRes(OutputPath(input, Proxy, c), disk), DropLast(input, 4) + TagText(u))
    ensures Exists(disk, OutputPath(input, FullRes, c))
            && (forall f :: Exists(disk, f) && FullResNameOf(f, DropLast(input, 4)) ==> f == OutputPath(input, FullRes, c))
            ==> RetargetToFullRes(OutputPath(input, Proxy, c), disk) == OutputPath(input, FullRes, c)
  {
    var b := DropLast(input, 4);
    var full := OutputPath(input, FullRes, c);
    ProxyNameOfStem(input, c);
    FullResLookup(b, ".mov", disk);
    if Exists(disk, full) {
      IntermediateNameOfStem(input, c);
      FullResSearchPriority(b, disk, CodecTag(c), full);
    }
  }

  /** The proxy execute writes is `<stem>_proxy.mov`, a match for `<stem>_proxy.*`. */
  lemma ProxyNameOfStem(input: string, c: Codec)
    ensures OutputPath(input, Proxy, c) == DropLast(input, 4) + ProxyTag + ".mov"
    ensures MatchesDotStar(OutputPath(input, Proxy, c), DropLast(input, 4) + ProxyTag)
  {
    var b := DropLast(input, 4);
    OutputPathRules(input, Proxy, c);
    assert OutputPath(input, Proxy, c) == b + ProxyTag + "." + "mov";
    MatchesDotStarOf(b + ProxyTag, "mov");
  }

  /** The intermediate execute writes is a match for `<stem><tag>.*`, for its codec's tag. */
  lemma IntermediateNameOfStem(input: string, c: Codec)
    ensures MatchesDotStar(OutputPath(input, FullRes, c), DropLast(input, 4) + TagText(CodecTag(c)))
  {
    var b := DropLast(input, 4);
    var t := CodecTag(c);
    var ext := if c == IsH264 then ".mkv" else ".mov";
    OutputPathRules(input, FullRes, c);
    assert OutputPath(input, FullRes, c) == b + TagText(t) + "." + ext[1..];
    MatchesDotStarOf(b + TagText(t), ext[1..]);
  }

  /**
   * A source `<stem>.xyz` is untagged, splits into `<stem>` and `.xyz`, has
   * a movie extension and is a full-res name of its stem.
   */
  lemma PlainSource(input: string, movieExts: seq<string>)
    requires IsSource(input, movieExts)
    requires |input| > 4 && input[|input| - 4] == '.'
    requires '.' !in input[|input| - 3..] && '/' !in input[|input| - 3..]
    requires input[|input| - 5] != '.' && input[|input| - 5] != '/'
    ensures Classify(input) == Untagged
    ensures SplitExt(input).0 == DropLast(input, 4)
    ensures Lower(SplitExt(input).1) in movieExts
    ensures FullResNameOf(input, DropLast(input, 4))
  {
    SourceIsUntagged(input, movieExts);
    PlainSourceSplit(input);
  }

  /** A source carries none of the tags with a dot after them. */
  lemma SourceIsUntagged(input: string, movieExts: seq<string>)
    requires IsSource(input, movieExts)
    ensures Classify(input) == Untagged
  {
    if Contains(input, TagText(H264) + ".") {
      ContainsOfLonger(input, TagText(H264), ".");
    }
  }

  /** `<stem>.xyz` splits into `<stem>` and `.xyz`, and matches `<stem>.*`. */
  lemma PlainSourceSplit(input: string)
    requires |input| > 4 && input[|input| - 4] == '.'
    requires '.' !in input[|input| - 3..] && '/' !in input[|input| - 3..]
    requires input[|input| - 5] != '.' && input[|input| - 5] != '/'
    ensures SplitExt(input) == (DropLast(input, 4), TakeLast(input, 4))
    ensures MatchesDotStar(input, DropLast(input, 4))
  {
    var b := DropLast(input, 4);
    var x := input[|input| - 4..];
    assert input == b + x;
    assert WellFormedExt(x) by {
      assert x[1..] == input[|input| - 3..];
    }
    SplitExtAt(b, x);
    assert input == b + "." + input[|input| - 3..];
    MatchesDotStarOf(b, input[|input| - 3..]);
  }

  /**
   * The untagged round trip. For a source `<stem>.xyz` whose proxy execute
   * wrote, the to-proxy pass moves the strip onto the proxy when it is the
   * only `<stem>_proxy.*` file, and the to-full-res pass brings it back to
   * the source when that is the only full-res name of the stem in the
   * folder.
   */
  lemma ProxyThenFullResKeepsSource(input: string, c: Codec, disk: Disk, movieExts: seq<string>)
    requires IsSource(input, movieExts)
    requires |input| > 4 && input[|input| - 4] == '.'
    requires '.' !in input[|input| - 3..] && '/' !in input[|input| - 3..]
    requires input[|input| - 5] != '.' && input[|input| - 5] != '/'
    requires Exists(disk, input) && Exists(disk, OutputPath(input, Proxy, c))
    requires forall f :: Exists(disk, f) && MatchesDotStar(f, DropLast(input, 4) + ProxyTag) ==> f == OutputPath(input, Proxy, c)
    requires forall f :: Exists(disk, f) && FullResNameOf(f, DropLast(input, 4)) ==> f == input
    ensures RetargetToProxy(input, disk, movieExts) == OutputPath(input, Proxy, c)
    ensures RetargetToFullRes(RetargetToProxy(input, disk, movieExts), disk) == input
  {
    SourceToItsProxy(input, c, disk, movieExts);
    ProxyBackToSource(input, c, disk);
  }

  /** The to-proxy half of the untagged round trip. */
  lemma SourceToItsProxy(input: string, c: Codec, disk: Disk, movieExts: seq<string>)
    requires IsSource(input, movieExts)
    requires |input| > 4 && input[|input| - 4] == '.'
    requires '.' !in input[|input| - 3..] && '/' !in input[|input| - 3..]
    requires input[|input| - 5] != '.' && input[|input| - 5] != '/'
    requires Exists(disk, OutputPath(input, Proxy, c))
    requires forall f :: Exists(disk, f) && MatchesDotStar(f, DropLast(input, 4) + ProxyTag) ==> f == OutputPath(input, Proxy, c)
    ensures RetargetToProxy(input, disk, movieExts) == OutputPath(input, Proxy, c)
  {
    var b := DropLast(input, 4);
    var proxy := OutputPath(input, Proxy, c);
    PlainSource(input, movieExts);
    ProxyNameOfStem(input, c);
    var matches := Glob(disk, b + ProxyTag);
    assert proxy in matches;
    assert matches[0] in matches;
    UntaggedProxyLookup(input, disk, movieExts);
  }

  /** The to-full-res half of the untagged round trip. */
  lemma ProxyBackToSource(input: string, c: Codec, disk: Disk)
    requires |input| > 4 && input[|input| - 4] == '.'
    requires '.' !in input[|input| - 3..] && '/' !in input[|input| - 3..]
    requires input[|input| - 5] != '.' && input[|input| - 5] != '/'
    requires Exists(disk, input)
    requires forall f :: Exists(disk, f) && FullResNameOf(f, DropLast(input, 4)) ==> f == input
    ensures RetargetToFullRes(OutputPath(input, Proxy, c), disk) == input
  {
    var b := DropLast(input, 4);
    PlainSourceSplit(input);
    assert FullResNameOf(input, b);
    ProxyNameOfStem(input, c);
    FullResLookup(b, ".mov", disk);
  }

  /**
   * The tagged round trip for ProRes and MJPEG: a strip on an intermediate
   * goes to the proxy execute wrote beside it, and comes back to the
   * intermediate when it is the only full-res name of the stem.
   */
  lemma IntermediateThenBackKeepsIntermediate(input: string, c: Codec, disk: Disk, movieExts: seq<string>)
    requires IsSource(input, movieExts) && c != IsH264
    requires Exists(disk, OutputPath(input, FullRes, c)) && Exists(disk, OutputPath(input, Proxy, c))
    requires forall f :: Exists(disk, f) && FullResNameOf(f, DropLast(input, 4)) ==> f == OutputPath(input, FullRes, c)
    ensures RetargetToProxy(OutputPath(input, FullRes, c), disk, movieExts) == OutputPath(input, Proxy, c)
    ensures RetargetToFullRes(RetargetToProxy(OutputPath(input, FullRes, c), disk, movieExts), disk)
            == OutputPath(input, FullRes, c)
  {
    ProxyOfBuiltIntermediate(input, c, disk, movieExts);
    FullResOfBuiltProxy(input, c, disk);
  }

  /**
   * The tagged round trip in general: whichever proxy candidate the to-proxy
   * pass lands on (the path's own extension or any movie extension), the
   * to-full-res pass cuts it back to the same stem `b` and searches there.
   */
  lemma TaggedThenBackSearchesStem(b: string, t: Tag, ext: string, disk: Disk, movieExts: seq<string>)
    requires WellFormedExt(ext) && forall i :: 0 <= i < |movieExts| ==> WellFormedExt(movieExts[i])
    requires !Contains(b + TagText(t) + ext, ProxyTag + ".")
    requires forall u :: Rank(u) < Rank(t) ==> !Contains(b + TagText(t) + ext, TagText(u) + ".")
    requires RetargetToProxy(b + TagText(t) + ext, disk, movieExts) != b + TagText(t) + ext
    ensures FullResTarget(RetargetToProxy(b + TagText(t) + ext, disk, movieExts), disk) == FullResSearch(b, disk)
  {
    var e := TaggedProxyExtension(b, t, ext, disk, movieExts);
    FullResLookup(b, e, disk);
  }

  /** The proxy a moved tagged strip lands on is `b + "_proxy"` followed by a well-formed extension. */
  lemma TaggedProxyExtension(b: string, t: Tag, ext: string, disk: Disk, movieExts: seq<string>) returns (e: string)
    requires WellFormedExt(ext) && forall i :: 0 <= i < |movieExts| ==> WellFormedExt(movieExts[i])
    requires !Contains(b + TagText(t) + ext, ProxyTag + ".")
    requires forall u :: Rank(u) < Rank(t) ==> !Contains(b + TagText(t) + ext, TagText(u) + ".")
    requires RetargetToProxy(b + TagText(t) + ext, disk, movieExts) != b + TagText(t) + ext
    ensures WellFormedExt(e) && RetargetToProxy(b + TagText(t) + ext, disk, movieExts) == b + ProxyTag + e
  {
    TaggedProxyLookup(b, t, ext, disk, movieExts);
    e := FoundCandidateExtension(b, ext, disk, movieExts);
  }

  /** The first existing `_proxy` candidate of stem `b` is `b + "_proxy"` followed by one of the tried extensions. */
  lemma FoundCandidateExtension(b: string, ext: string, disk: Disk, movieExts: seq<string>) returns (e: string)
    requires WellFormedExt(ext) && forall i :: 0 <= i < |movieExts| ==> WellFormedExt(movieExts[i])
    requires FirstExisting([b + ProxyTag + ext]
                           + seq(|movieExts|, i requires 0 <= i < |movieExts| => b + ProxyTag + movieExts[i]), disk).Some?
    ensures WellFormedExt(e)
    ensures FirstExisting([b + ProxyTag + ext]
                          + seq(|movieExts|, i requires 0 <= i < |movieExts| => b + ProxyTag + movieExts[i]), disk).value
            == b + ProxyTag + e
  {
    var cands := [b + ProxyTag + ext]
                 + seq(|movieExts|, i requires 0 <= i < |movieExts| => b + ProxyTag + movieExts[i]);
    var i := FoundIndex(cands, disk);
    if i == 0 {
      e := ext;
    } else {
      e := movieExts[i - 1];
      assert cands[i] == b + ProxyTag + e;
    }
  }

  /** A found candidate is one of the candidates. */
  lemma FoundIndex(cands: seq<string>, disk: Disk) returns (i: nat)
    requires FirstExisting(cands, disk).Some?
    ensures i < |cands| && FirstExisting(cands, disk).value == cands[i]
  {
    i :| IsFirstExisting(cands, disk, i) && cands[i] == FirstExisting(cands, disk).value;
  }

  /**
   * A concrete strip whose path the to-proxy branches as written set to
   * None: a ProRes intermediate in a folder that holds no proxy of it.
   */
  lemma NoneAssignedExample(b: string, p: string, disk: Disk, movieExts: seq<string>)
    requires b == "/v/clip2" && p == b + "_PRORES.mov" && disk == Disk([p])
    ensures Classify(p) == Tagged(Prores)
    ensures RetargetToProxyAsWritten(p, disk, movieExts) == None
    ensures RetargetToProxy(p, disk, movieExts) == p
  {
    ExampleIsTagged(b, p);
    var cands := ProxyCandidates(p, Prores, movieExts);
    forall i | 0 <= i < |cands|
      ensures cands[i] != p
    {
      if i == 0 {
        ExampleCandidate(b, p, SplitExt(p).1);
      } else {
        assert cands[i] == b + ProxyTag + movieExts[i - 1];
        ExampleCandidate(b, p, movieExts[i - 1]);
      }
    }
    AsWrittenAssignsNoneOnMiss(p, disk, movieExts);
  }

  /** No `<stem>_proxy` name is the example path. */
  lemma ExampleCandidate(b: string, p: string, e: string)
    requires p == b + "_PRORES.mov"
    ensures b + ProxyTag + e != p
  {
    assert (b + ProxyTag + e)[|b| + 1] == 'p';
    assert p[|b| + 1] == 'P';
  }

  lemma ExampleIsTagged(b: string, p: string)
    requires b == "/v/clip2" && p == b + "_PRORES.mov"
    ensures Classify(p) == Tagged(Prores) && TaggedStem(p, Prores) == b
  {
    assert p == b + TagText(Prores) + ".mov";
    NotContainsFirstChar(b, ProxyTag + ".");
    NoPatternAcrossTag(b, TagText(Prores), ".mov", ProxyTag + ".");
    TaggedProxyLookup(b, Prores, ".mov", Disk([]), []);
  }
}

=== FILE: timeline.dfy ===
/**
 * The sequencer timeline that the two toggle operators rewrite in place:
 * every strip of the scene, movie and sound strips having their media path
 * retargeted and all other strips left alone.
 */
module Timeline {
  import opened Wrappers
  import opened PyStr
  import opened Files
  import opened Naming

  datatype StripType = Movie | Sound | OtherType

  /** A strip of the sequence editor. */
  class Strip {
    const stripType: StripType
    /** `s.filepath` for a movie strip, `s.sound.filepath` for a sound strip. */
    var filepath: string

    constructor (stripType: StripType, filepath: string)
      ensures this.stripType == stripType && this.filepath == filepath
    {
      this.stripType := stripType;
      this.filepath := filepath;
    }
  }

  /**
   * The to-proxy pass of Proxy_Editing_ToProxy.execute for one strip path,
   * under the corrected rule `Naming.RetargetToProxy`: on a tagged miss the
   * path is kept. The branches as written are `Naming.RetargetToProxyAsWritten`.
   */
  method ProxyPathFor(fPath: string, disk: Disk, movieExts: seq<string>) returns (newPath: string)
    ensures newPath == RetargetToProxy(fPath, disk, movieExts)
    ensures newPath == fPath || (Exists(disk, newPath) && Contains(newPath, ProxyTag))
  {
    newPath := fPath;
    match Classify(fPath)
    case AlreadyProxy =>
    case Tagged(t) =>
      var found := CheckProxyFile(fPath, t, disk, movieExts);
      if found.Some? {
        newPath := found.value;
      }
    case Untagged =>
      var (basePath, ext) := SplitExt(fPath);
      var matches := Glob(disk, basePath + ProxyTag);
      if matches != [] && Lower(ext) in movieExts {
        newPath := matches[0];
      }
  }

  /** The branches of Proxy_Editing_ToFullRes.execute for one strip path: the path the strip ends up with. */
  method FullResPathFor(fPath: string, disk: Disk) returns (newPath: string)
    ensures newPath == RetargetToFullRes(fPath, disk)
    ensures newPath != fPath ==> Contains(fPath, ProxyTag + ".") && Exists(disk, newPath)
  {
    newPath := fPath;
    if Contains(fPath, ProxyTag + ".") {
      var (basePath, ext) := SplitExt(fPath);
      var fName := DropLast(basePath, ProxyTagLen);
      var prores := Glob(disk, fName + TagText(Prores));
      var mjpeg := Glob(disk, fName + TagText(Mjpeg));
      var h264 := Glob(disk, fName + TagText(H264));
      var bare := Glob(disk, fName);
      if prores != [] {
        newPath := prores[0];
      } else if mjpeg != [] {
        newPath := mjpeg[0];
      } else if h264 != [] {
        newPath := h264[0];
      } else if bare != [] {
        newPath := bare[0];
      }
    }
  }

  /** The path a strip ends up with after a toggle, given the path a movie or sound strip is retargeted to. */
  function Toggled(s: Strip, oldPath: string, retargeted: string): string {
    if s.stripType == OtherType then oldPath else retargeted
  }

  /** One strip of the to-proxy loop: a movie or sound strip gets its to-proxy path. */
  method StripToProxy(s: Strip, disk: Disk, movieExts: seq<string>)
    modifies s
    ensures s.filepath == Toggled(s, old(s.filepath), RetargetToProxy(old(s.filepath), disk, movieExts))
  {
    if s.stripType != OtherType {
      var newPath := ProxyPathFor(s.filepath, disk, movieExts);
      s.filepath := newPath;
    }
  }

  /** One strip of the to-full-res loop: a movie or sound strip gets its to-full-res path. */
  method StripToFullRes(s: Strip, disk: Disk)
    modifies s
    ensures s.filepath == Toggled(s, old(s.filepath), RetargetToFullRes(old(s.filepath), disk))
  {
    if s.stripType != OtherType {
      var newPath := FullResPathFor(s.filepath, disk);
      s.filepath := newPath;
    }
  }

  /**
   * Proxy_Editing_ToProxy.execute over `sequences_all`, under the corrected
   * tagged-miss rule `Naming.RetargetToProxy`: each movie or sound strip moves
   * to its proxy when one is found and keeps its path otherwise; other strips
   * are not touched. The branches as written, which assign None on a tagged
   * miss, are `Naming.RetargetToProxyAsWritten`.
   */
  method ToProxy(strips: array<Strip>, disk: Disk, movieExts: seq<string>)
    requires forall i, j :: 0 <= i < strips.Length && 0 <= j < strips.Length && i != j ==> strips[i] != strips[j]
    modifies set i | 0 <= i < strips.Length :: strips[i]
    ensures forall i :: 0 <= i < strips.Length ==>
      strips[i].filepath == Toggled(strips[i], old(strips[i].filepath),
                                    RetargetToProxy(old(strips[i].filepath), disk, movieExts))
  {
    ghost var want := seq(strips.Length, i requires 0 <= i < strips.Length reads strips, set j | 0 <= j < strips.Length :: strips[j] =>
      Toggled(strips[i], strips[i].filepath, RetargetToProxy(strips[i].filepath, disk, movieExts)));
    for n := 0 to strips.Length
      invariant forall i :: 0 <= i < n ==> strips[i].filepath == want[i]
      invariant forall i :: n <= i < strips.Length ==> strips[i].filepath == old(strips[i].filepath)
    {
      label before:
      StripToProxy(strips[n], disk, movieExts);
      forall i | 0 <= i < strips.Length && i != n
        ensures strips[i].filepath == old@before(strips[i].filepath)
      {
        assert strips[i] != strips[n];
      }
    }
  }

  /**
   * Proxy_Editing_ToFullRes.execute over `sequences_all`: each movie or
   * sound strip on a `_proxy.` path moves to the first full-res file found
   * and keeps its path otherwise; other strips are not touched.
   */
  method ToFullRes(strips: array<Strip>, disk: Disk)
    requires forall i, j :: 0 <= i < strips.Length && 0 <= j < strips.Length && i != j ==> strips[i] != strips[j]
    modifies set i | 0 <= i < strips.Length :: strips[i]
    ensures forall i :: 0 <= i < strips.Length ==>
      strips[i].filepath == Toggled(strips[i], old(strips[i].filepath),
                                    RetargetToFullRes(old(strips[i].filepath), disk))
  {
    ghost var want := seq(strips.Length, i requires 0 <= i < strips.Length reads strips, set j | 0 <= j < strips.Length :: strips[j] =>
      Toggled(strips[i], strips[i].filepath, RetargetToFullRes(strips[i].filepath, disk)));
    for n := 0 to strips.Length
      invariant forall i :: 0 <= i < n ==> strips[i].filepath == want[i]
      invariant forall i :: n <= i < strips.Length ==> strips[i].filepath == old(strips[i].filepath)
    {
      label before:
      StripToFullRes(strips[n], disk);
      forall i | 0 <= i < strips.Length && i != n
        ensures strips[i].filepath == old@before(strips[i].filepath)
      {
        assert strips[i] != strips[n];
      }
    }
  }
}

=== FILE: transcode.dfy ===
/**
 * One transcoder job (VideoSource): its output path, its argument fragments,
 * the exact command line, and how its outcome is judged (runFF).
 */
module Transcode {
  import opened PyStr
  import opened Files
  import opened Naming

  /** `v_res`: a proxy or a full-resolution intermediate. */
  datatype Resolution = Proxy | FullRes

  /** `v_format`: the three items of the codec choice. */
  datatype Codec = IsMjpeg | IsProres | IsH264

  /** What runFF returns: FINISHED or CANCELED. */
  datatype Status = Finished | Canceled

  /** The tag an intermediate of this codec carries. */
  function CodecTag(c: Codec): Tag {
    match c
    case IsProres => Prores
    case IsMjpeg => Mjpeg
    case IsH264 => H264
  }

  /** What replaces the last four characters of the input in the output path. */
  function OutputSuffix(res: Resolution, codec: Codec): string {
    match res
    case Proxy => "_proxy.mov"
    case FullRes =>
      match codec
      case IsProres => "_PRORES.mov"
      case IsMjpeg => "_MJPEG.mov"
      case IsH264 => "_h264.mkv"
  }

  /** `self.input[:-4]` followed by the suffix for the role and codec. */
  function OutputPath(input: string, res: Resolution, codec: Codec): string {
    DropLast(input, 4) + OutputSuffix(res, codec)
  }

  /** The indentation that the add-on's backslash-continued string literals carry into the option text. */
  const Gap := "                               "

  /** `self.format`: the fixed transcoder options for the role and codec. */
  function FormatArgs(res: Resolution, codec: Codec): string {
    match (res, codec)
    case (Proxy, IsProres) =>
      "-probesize 5000000 -c:v prores " + Gap
      + "-profile:v 0 -qscale:v 13 -vendor ap10 " + Gap
      + "-pix_fmt yuv422p10le -acodec pcm_s16be"
    case (Proxy, IsMjpeg) =>
      "-probesize 5000000 -c:v mjpeg " + Gap
      + "-qscale:v 5 -pix_fmt yuvj422p -acodec pcm_s16be"
    case (FullRes, IsProres) =>
      "-probesize 5000000 -c:v prores -profile:v 3 " + Gap
      + "-qscale:v 5 -vendor ap10 -pix_fmt yuv422p10le " + Gap
      + "-pix_fmt yuvj422p -acodec pcm_s16be"
    case (FullRes, IsMjpeg) =>
      "-probesize 5000000 -c:v mjpeg -qscale:v 1 " + Gap
      + "-acodec pcm_s16be"
    case (_, IsH264) =>
      "-probesize 5000000 -c:v libx264 -pix_fmt yuv420p " + Gap
      + "-g 1 -sn -crf 25 -preset ultrafast -tune fastdecode -c:a copy"
  }

  function DeinterlaceArg(deinter: bool): string {
    if deinter then " -vf yadif" else ""
  }

  function MonoArg(ac: bool): string {
    if ac then " -ac 1" else ""
  }

  function OverwriteArg(ow: bool): string {
    if ow then " -y" else " -n"
  }

  /**
   * The fields VideoSource.__init__ sets. They are never changed afterwards,
   * so a job is a value.
   */
  datatype VideoSource = VideoSource(
    ffCommand: string,
    input: string,
    filepath: string,
    fps: string,
    arate: string,
    vSize: string,
    deinter: string,
    achannels: string,
    overwrite: string,
    vOutput: string,
    format: string)

  /** VideoSource.__init__. */
  function NewVideoSource(ffCommand: string, filepath: string, vSource: string, vRes: Resolution,
                          vResW: int, vResH: int, vFormat: Codec, fps: string,
                          deinter: bool, ar: int, ac: bool, ow: bool): (vs: VideoSource)
    ensures vs.input == vSource && vs.vOutput == OutputPath(vSource, vRes, vFormat)
    ensures vs.deinter == DeinterlaceArg(deinter) && vs.achannels == MonoArg(ac)
    ensures vs.overwrite == OverwriteArg(ow) && vs.format == FormatArgs(vRes, vFormat)
    ensures vs.ffCommand == ffCommand && vs.filepath == filepath && vs.fps == fps
    ensures vs.arate == IntToDecimal(ar) && vs.vSize == IntToDecimal(vResW) + "x" + IntToDecimal(vResH)
  {
    VideoSource(
      ffCommand, vSource, filepath, fps, IntToDecimal(ar),
      IntToDecimal(vResW) + "x" + IntToDecimal(vResH),
      DeinterlaceArg(deinter), MonoArg(ac), OverwriteArg(ow),
      OutputPath(vSource, vRes, vFormat), FormatArgs(vRes, vFormat))
  }

  /**
   * The literal pieces of the `callFFMPEG` template
   * `"%s" -hwaccel auto -i "%s" %s -r %s -s %s%s%s -ar %s%s "%s"`,
   * cut at each `%s`.
   */
  const CallPieces: seq<string> :=
    ["\"", "\" -hwaccel auto -i \"", "\" ", " -r ", " -s ", "", "", " -ar ", "", " \"", "\""]

  /** The ten values that template is formatted with, in order. */
  function CallArgs(vs: VideoSource): seq<string> {
    [vs.ffCommand, vs.input, vs.format, vs.fps, vs.vSize, vs.deinter, vs.achannels, vs.arate, vs.overwrite, vs.vOutput]
  }

  /** `callFFMPEG`: the command line runFF hands to the subprocess. */
  function Command(vs: VideoSource): string {
    CallPieces[0] + vs.ffCommand + CallPieces[1] + vs.input + CallPieces[2] + vs.format
    + CallPieces[3] + vs.fps + CallPieces[4] + vs.vSize + CallPieces[5] + vs.deinter
    + CallPieces[6] + vs.achannels + CallPieces[7] + vs.arate + CallPieces[8] + vs.overwrite
    + CallPieces[9] + vs.vOutput + CallPieces[10]
  }

  /**
   * The filesystem after the transcoder ran for `output`: `wrote` says
   * whether the run left the output file behind; a run removes nothing.
   */
  function AfterCall(disk: Disk, output: string, wrote: bool): Disk {
    if wrote && !Exists(disk, output) then Disk(disk.listing + [output]) else disk
  }

  /**
   * runFF: run the command, then report FINISHED exactly when the output path
   * exists afterwards, whatever the run itself did. An output that was
   * already there counts as finished even if the run wrote nothing.
   */
  method RunFF(vs: VideoSource, disk: Disk, wrote: bool) returns (command: string, status: Status, after: Disk)
    ensures command == Command(vs)
    ensures after == AfterCall(disk, vs.vOutput, wrote)
    ensures forall f :: Exists(disk, f) ==> Exists(after, f)
    ensures status == Finished <==> Exists(disk, vs.vOutput) || wrote
  {
    command := Command(vs);
    after := AfterCall(disk, vs.vOutput, wrote);
    if vs.vOutput in after.listing {
      status := Finished;
    } else {
      status := Canceled;
    }
  }

  /**
   * The output path table: a proxy is always `_proxy.mov` whatever the codec;
   * an intermediate carries its codec's tag, in a `.mkv` for H.264 and a
   * `.mov` otherwise.
   */
  lemma OutputPathRules(input: string, res: Resolution, codec: Codec)
    ensures res == Proxy ==> OutputPath(input, res, codec) == DropLast(input, 4) + ProxyTag + ".mov"
    ensures res == FullRes ==>
      OutputPath(input, res, codec)
      == DropLast(input, 4) + TagText(CodecTag(codec)) + (if codec == IsH264 then ".mkv" else ".mov")
  {
  }

  lemma SameSuffix(a: string, x: string, y: string)
    requires a + x == a + y
    ensures x == y
  {
    assert x == (a + x)[|a|..];
    assert y == (a + y)[|a|..];
  }

  /** Two jobs on one input write the same file exactly when both are proxies, or both are intermediates of one codec. */
  lemma OutputPathsCollide(input: string, r1: Resolution, c1: Codec, r2: Resolution, c2: Codec)
    ensures OutputPath(input, r1, c1) == OutputPath(input, r2, c2)
        <==> r1 == r2 && (r1 == Proxy || c1 == c2)
  {
    if OutputPath(input, r1, c1) == OutputPath(input, r2, c2) {
      SameSuffix(DropLast(input, 4), OutputSuffix(r1, c1), OutputSuffix(r2, c2));
      var x, y := OutputSuffix(r1, c1), OutputSuffix(r2, c2);
      assert x == y;
      assert x[1] == y[1] && x[2] == y[2];
    }
  }

  /** The job never writes over its own input. */
  lemma OutputIsNotInput(input: string, res: Resolution, codec: Codec)
    ensures OutputPath(input, res, codec) != input
  {
  }

  /**
   * The overwrite fragment sits at a fixed place at the end of the command,
   * so the command alone tells the policy of any job built with flag `ow`.
   */
  lemma CommandShowsOverwritePolicy(vs: VideoSource, ow: bool)
    requires vs.overwrite == OverwriteArg(ow)
    ensures IsSuffix(" -y \"" + vs.vOutput + "\"", Command(vs)) <==> ow
  {
    var tail := vs.overwrite + " \"" + vs.vOutput + "\"";
    var head := CommandTailSplit(vs);
    SuffixOfConcat(head, tail, " -y \"" + vs.vOutput + "\"");
    if !ow {
      assert tail[2] == 'n';
    }
  }

  /** The command is some head followed by the overwrite fragment and the quoted output path. */
  lemma CommandTailSplit(vs: VideoSource) returns (head: string)
    ensures Command(vs) == head + (vs.overwrite + " \"" + vs.vOutput + "\"")
  {
    head := CallPieces[0] + vs.ffCommand + CallPieces[1] + vs.input + CallPieces[2] + vs.format
      + CallPieces[3] + vs.fps + CallPieces[4] + vs.vSize + CallPieces[5] + vs.deinter + CallPieces[6] + vs.achannels
      + CallPieces[7] + vs.arate + CallPieces[8];
    var o, q, out := vs.overwrite, " \"", vs.vOutput;
    assert CallPieces[8] == "" && CallPieces[9] == q && CallPieces[10] == "\"";
    calc {
      Command(vs);
      ((head + o) + q) + out + "\"";
      { assert (head + o) + q == head + (o + q); }
      (head + (o + q)) + out + "\"";
      { assert (head + (o + q)) + out == head + ((o + q) + out); }
      (head + ((o + q) + out)) + "\"";
      head + (o + q + out + "\"");
    }
  }

  lemma SuffixOfConcat(h: string, t: string, y: string)
    requires |y| == |t|
    ensures IsSuffix(y, h + t) <==> y == t
  {
    assert (h + t)[|h + t| - |t|..] == t;
  }

  /** The flag fragments, run together as in the command, still tell both flags apart. */
  lemma FlagFragmentsAreUnambiguous(d1: bool, m1: bool, d2: bool, m2: bool)
    requires DeinterlaceArg(d1) + MonoArg(m1) == DeinterlaceArg(d2) + MonoArg(m2)
    ensures d1 == d2 && m1 == m2
  {
  }

  /**
   * The command is the add-on's `%` formatting of the `callFFMPEG` template
   * with the job's fields, in the order the add-on lists them.
   */
  lemma CommandIsCallFormat(vs: VideoSource)
    ensures Command(vs) == PercentFormat(TemplateOf(CallPieces), CallArgs(vs))
  {
    CallPiecesArePlain();
    FormatTemplate(CallPieces, CallArgs(vs));
    InterleaveTen(CallPieces, CallArgs(vs));
    CommandRegrouped(vs);
  }

  lemma CallPiecesArePlain()
    ensures forall i :: 0 <= i < |CallPieces| ==> NoPercent(CallPieces[i])
  {
  }

  lemma InterleaveTen(p: seq<string>, a: seq<string>)
    requires |p| == 11 && |a| == 10
    ensures Interleave(p, a) == p[0] + (a[0] + (p[1] + (a[1] + (p[2] + (a[2] + (p[3] + (a[3] + (
        p[4] + (a[4] + (p[5] + (a[5] + (p[6] + (a[6] + (p[7] + (a[7] + (p[8] + (a[8] + (p[9] + (
        a[9] + p[10])))))))))))))))))))
  {
    assert Interleave(p[10..], a[10..]) == p[10];
    assert Interleave(p[9..], a[9..]) == p[9] + (a[9] + Interleave(p[10..], a[10..])) by {
      assert p[9..][1..] == p[10..] && a[9..][1..] == a[10..];
    }
    assert Interleave(p[8..], a[8..]) == p[8] + (a[8] + Interleave(p[9..], a[9..])) by {
      assert p[8..][1..] == p[9..] && a[8..][1..] == a[9..];
    }
    assert Interleave(p[7..], a[7..]) == p[7] + (a[7] + Interleave(p[8..], a[8..])) by {
      assert p[7..][1..] == p[8..] && a[7..][1..] == a[8..];
    }
    assert Interleave(p[6..], a[6..]) == p[6] + (a[6] + Interleave(p[7..], a[7..])) by {
      assert p[6..][1..] == p[7..] && a[6..][1..] == a[7..];
    }
    assert Interleave(p[5..], a[5..]) == p[5] + (a[5] + Interleave(p[6..], a[6..])) by {
      assert p[5..][1..] == p[6..] && a[5..][1..] == a[6..];
    }
    assert Interleave(p[4..], a[4..]) == p[4] + (a[4] + Interleave(p[5..], a[5..])) by {
      assert p[4..][1..] == p[5..] && a[4..][1..] == a[5..];
    }
    assert Interleave(p[3..], a[3..]) == p[3] + (a[3] + Interleave(p[4..], a[4..])) by {
      assert p[3..][1..] == p[4..] && a[3..][1..] == a[4..];
    }
    assert Interleave(p[2..], a[2..]) == p[2] + (a[2] + Interleave(p[3..], a[3..])) by {
      assert p[2..][1..] == p[3..] && a[2..][1..] == a[3..];
    }
    assert Interleave(p[1..], a[1..]) == p[1] + (a[1] + Interleave(p[2..], a[2..])) by {
      assert p[1..][1..] == p[2..] && a[1..][1..] == a[2..];
    }
    assert Interleave(p[0..], a[0..]) == p[0] + (a[0] + Interleave(p[1..], a[1..])) by {
      assert p[0..][1..] == p[1..] && a[0..][1..] == a[1..];
    }
    assert p[0..] == p && a[0..] == a;
  }

  /** The command, regrouped to the right. */
  lemma CommandRegrouped(vs: VideoSource)
    ensures Command(vs) == CallPieces[0] + (vs.ffCommand + (CallPieces[1] + (vs.input + (CallPieces[2] + (
        vs.format + (CallPieces[3] + (vs.fps + (CallPieces[4] + (vs.vSize + (CallPieces[5] + (vs.deinter + (
        CallPieces[6] + (vs.achannels + (CallPieces[7] + (vs.arate + (CallPieces[8] + (vs.overwrite + (
        CallPieces[9] + (vs.vOutput + CallPieces[10])))))))))))))))))))
  {
    RegroupRight(CallPieces[0], vs.ffCommand, CallPieces[1], vs.input, CallPieces[2], vs.format,
                 CallPieces[3], vs.fps, CallPieces[4], vs.vSize, CallPieces[5], vs.deinter,
                 CallPieces[6], vs.achannels, CallPieces[7], vs.arate, CallPieces[8], vs.overwrite,
                 CallPieces[9], vs.vOutput, CallPieces[10]);
  }

  lemma RegroupRight(q0: string, q1: string, q2: string, q3: string, q4: string, q5: string, q6: string,
                      q7: string, q8: string, q9: string, q10: string, q11: string, q12: string, q13: string,
                      q14: string, q15: string, q16: string, q17: string, q18: string, q19: string, q20: string)
    ensures (((((((((((((((((((q0 + q1) + q2) + q3) + q4) + q5) + q6) + q7) + q8) + q9) + q10)
          + q11) + q12) + q13) + q14) + q15) + q16) + q17) + q18) + q19) + q20
         == q0 + (q1 + (q2 + (q3 + (q4 + (q5 + (q6 + (q7 + (q8 + (q9 + (q10 + (q11 + (q12 + (q13 + (
        q14 + (q15 + (q16 + (q17 + (q18 + (q19 + q20)))))))))))))))))))
  {
  }
}

=== FILE: wrappers.dfy ===
/** The optional value used wherever the add-on returns a path or Python's `None`. */
module Wrappers {

  datatype Option<T> = None | Some(value: T) {

    /** The value held, or `default` when there is none. */
    function GetOr(default: T): T {
      match this
      case Some(v) => v
      case None => default
    }
  }
}
